=== FILE: README.md ===
# mcp-trivia, modelled in Dafny

mcp-trivia is a trivia quiz. A FastAPI backend asks an LLM agent for
questions and parses the agent's reply. A React frontend walks the player
through a setup form, a one-question-at-a-time quiz, a score report and a
review of the answers. This project models the sequential logic of both
halves and proves what it promises:

- **Backend reply parser** (`JsonParser`, `TextFields`, `Json`, `Text`). The
  agent's reply comes as markdown-fenced JSON or bare JSON. The parser strips
  the fences and repairs the raw text with fixed chains of literal
  replacements and one regular-expression rewrite. It walks the fixed key
  path `get_trivia_questions_response → result → content[0] → text` and
  validates the question list. Every failure becomes a truncated error
  record. JSON values are a datatype. Python's `in`, subscripting and
  `isinstance` are functions that return the exception Python would raise.
  `json.loads` is a parameter.
- **Question service client** (`Api`). It sends one request and turns the
  transport outcome into a tagged result. Questions get the ids "1".."n".
- **Setup form and topic picker** (`TriviaForm`, `TopicSelector`). These are
  the topic → difficulty → count steps, the start guard, the cut to the
  chosen count and the error/retry flag.
- **Quiz** (`QuizNavigation`). The state is the current position plus the
  answer array. The transitions are select, next, previous and skip.
- **Score report and review** (`FinalReport`, `Review`). The report counts
  matches, rounds the percentage and picks a message band. The review has
  per-question cells whose result, once revealed, stays revealed.
- **Screen flow** (`AppFlow`). This covers welcome, setup, quiz, report and
  review, with the questions and answers handed between them.
- **Cross-cutting facts** (`Pipeline`). The quiz reads its first question as
  soon as it mounts. Only the backend's validator guarantees that there is
  one. `Pipeline` proves that the parser's guarantee carries through the
  client, the form and the screen flow. It also proves that the frontend on
  its own would let an empty list through.

A handler is modelled as one atomic transition. A button that is disabled,
or not rendered, is an event with no effect.

## Model

| member | source | states |
|---|---|---|
| Text.ReplaceAll | backend/app/utils/json_parser.py:193-202 | `str.replace`: a replacement no longer than its pattern never lengthens the text, and one no shorter never shortens it. Every character of the result comes from the input or from the replacement. |
| Text.ReplaceAllAbsent | backend/app/utils/json_parser.py:273-285 | Replacing a pattern that does not occur leaves the text unchanged. |
| Text.ReplaceAllFirstOccurrence | backend/app/utils/json_parser.py:110-111 | The leftmost occurrence is replaced, and the scan resumes right after it. |
| Text.ReplaceAllSameLength | backend/app/utils/json_parser.py:110-111 | With a replacement as long as its pattern, each output character is the input character or the replacement's character at the same offset in the pattern. |
| Text.ReplaceAllRemovesChar | backend/app/utils/json_parser.py:127-133 | Replacing a character by text that does not contain it removes every occurrence of it. |
| Text.Strip | backend/app/utils/json_parser.py:33-40 | `strip()` returns a contiguous slice of its input. Its ends are not whitespace, and everything cut off on either side is whitespace. |
| Text.StripClean | backend/app/utils/json_parser.py:33 | Text whose ends are not whitespace is unchanged by stripping. |
| Text.StripAround | backend/app/utils/json_parser.py:33 | Stripping whitespace-only margins off text with non-space ends gives exactly that text. |
| Text.Decimal | frontend/src/services/api.ts:25 | `toString()` of a natural number is a non-empty string of digits, and it starts with `0` exactly for zero (no leading zeros). |
| Text.DecimalRoundTrip | frontend/src/services/api.ts:25 | The decimal string of a number reads back as that number. |
| Text.DecimalInjective | frontend/src/services/api.ts:25 | Different numbers have different decimal strings. |
| Json.Contains | backend/app/utils/json_parser.py:53-66 | `in` tests dict keys, list elements for equality, or substrings of a string. On any other value it raises TypeError, and it fails exactly then. |
| Json.Subscript | backend/app/utils/json_parser.py:211-214 | A present key or in-range position yields its value, and a string position yields the one-character string. KeyError exactly for a dict without the key. IndexError exactly for a position past the end of a list or string. TypeError exactly for any other pairing of value and key. No other exception is raised. |
| Text.RunEnd | backend/app/utils/json_parser.py:138 | A `\s*` run: everything it skips is whitespace, and it stops at a non-whitespace character or at the end. |
| Text.RunStart | backend/app/utils/json_parser.py:33 | The trailing whitespace run that `strip()` cuts: everything in it is whitespace, and the character before it is not. |
| TextFields.OpenAt | backend/app/utils/json_parser.py:138 | `"text":\s*"` matches at `i` and ends at `start` exactly when the result is `start`: the key occurs at `i`, only whitespace follows it, and then a quote. No result means the opening group matches at `i` in no way. |
| TextFields.CloseAt | backend/app/utils/json_parser.py:138 | Every way `",\s*"type":\s*"text"` can match at `e` ends where the result says, and a result is only given when such a match exists. So no result means the closing group cannot match at `e`. |
| TextFields.FirstClose | backend/app/utils/json_parser.py:138 | The lazy `(.*?)` ends at the first position where the closing group matches; no earlier position from the start matches, and no result means none matches from the start to the end. |
| TextFields.SpacesEndAtQuote | backend/app/utils/json_parser.py:138 | A `\s*` run followed by a quote, or by a pattern that starts with one, can only end where the whitespace runs out, so each `\s*` in the pattern matches in one way only. |
| TextFields.MatchAt | backend/app/utils/json_parser.py:138-140 | A match at `i` is the opening group, then content up to the first position where the closing group matches, then that closing group. No match means that for every way the opening group matches, the closing group matches at no later position. |
| TextFields.FixTextContent | backend/app/utils/json_parser.py:114-135 | The repaired field content holds no literal newline, tab or carriage return. |
| TextFields.FixTextContentKeepsCleanText | backend/app/utils/json_parser.py:124-133 | Content without `\'` and without those control characters is kept as it is. |
| TextFields.SubFromWithoutFields | backend/app/utils/json_parser.py:140 | `re.sub` leaves text with no `"text":` key unchanged. |
| TextFields.FixTextFieldsWithoutFields | backend/app/utils/json_parser.py:140 | The same, for the whole text. |
| TextFields.SubFromAtMatch | backend/app/utils/json_parser.py:114-141 | A matched field keeps its opening and closing and gets its content repaired, and the scan resumes after the match. |
| TextFields.FixBooleans | backend/app/utils/json_parser.py:110-111 | The boolean repair keeps the length of the text. Afterwards no `"isError": False` and no `"isError": True` remains anywhere. |
| Text.ReplaceAllLeavesNoKey | backend/app/utils/json_parser.py:110-111 | `str.replace` leaves no occurrence of a key when the replacement cannot take part in one, and the key is either the pattern itself or absent from the input. |
| Text.NotOccursAround | backend/app/utils/json_parser.py:110-111 | A string that cannot take part in an occurrence of a key, placed between two key-free strings, leaves the whole key-free. |
| TextFields.FixBooleansOnlyLowercases | backend/app/utils/json_parser.py:110-111 | The boolean repair changes nothing but an `F` into `f` or a `T` into `t`. |
| TextFields.FixBooleansWithoutKeys | backend/app/utils/json_parser.py:110-111 | Text without an `"isError": False/True` key is untouched. |
| TextFields.FixBooleansRewritesFalse | backend/app/utils/json_parser.py:110 | Between text holding neither key, `"isError": False` becomes `"isError": false`, and the text around it is kept. |
| TextFields.FixBooleansRewritesTrue | backend/app/utils/json_parser.py:111 | Between text holding neither key, `"isError": True` becomes `"isError": true`, and the text around it is kept. |
| TextFields.FixControlCharactersIdentity | backend/app/utils/json_parser.py:98-142 | Text with neither key passes through the whole repair unchanged. |
| JsonParser.CreateErrorResponse | backend/app/utils/json_parser.py:332-339 | Always `success` false with no questions and the given message. The raw text is kept when it has at most 500 characters. Otherwise the record keeps its first 500 characters plus `...`, 503 in all. |
| JsonParser.AllQuestionRecords | backend/app/utils/json_parser.py:315-327 | The element loop accepts exactly when every remaining element is a valid question record. |
| JsonParser.ValidateQuestionsFormat | backend/app/utils/json_parser.py:310-329 | True exactly for a non-empty list of dicts that have the four keys, at least two options and an `int` (or `bool`) `correct_answer`. |
| JsonParser.ValidatorIgnoresAnswerRange | backend/app/utils/json_parser.py:326-327 | An out-of-range, negative or boolean `correct_answer` passes validation. |
| JsonParser.CleanExtractedQuestionsText | backend/app/utils/json_parser.py:188-204 | The cleaned text holds no literal newline, tab or carriage return. |
| JsonParser.CleanExtractedQuestionsTextKeepsPlainText | backend/app/utils/json_parser.py:188-204 | Text with no backslash and no control character comes out unchanged. |
| JsonParser.CleanTripleEscapedJson | backend/app/utils/json_parser.py:273-285 | Every rule shortens what it matches, so the result is never longer than the input. |
| JsonParser.CleanTripleEscapedJsonUnchanged | backend/app/utils/json_parser.py:273-285 | Text without any of the six patterns is returned unchanged. |
| JsonParser.StripFences | backend/app/utils/json_parser.py:33-40 | Fence removal never lengthens the text and leaves no whitespace at either end. |
| JsonParser.Unfence | backend/app/utils/json_parser.py:34-40 | Removing the fences from the stripped reply never lengthens it and leaves no whitespace at either end. |
| JsonParser.StripFencesOfFencedBlock | backend/app/utils/json_parser.py:33-40 | A block fenced by "```json" and "```" yields its stripped body. |
| JsonParser.StripFencesOfSpacedBlock | backend/app/utils/json_parser.py:33-40 | The same block with any whitespace before and after it yields the same stripped body. |
| JsonParser.StripFencesOfUnclosedBlock | backend/app/utils/json_parser.py:33-40 | A stripped reply that opens with "```json" but does not end in "```" loses only the opening fence and the whitespace after it. |
| JsonParser.NavigateEnvelope | backend/app/utils/json_parser.py:230-235 | The navigation path reaches exactly the text at `get_trivia_questions_response.result.content[0].text`. |
| JsonParser.HandleNavigation | backend/app/utils/json_parser.py:207-246 | The walk's result decides the outcome. A list is returned exactly when the walk reaches a list that passes validation, and that list is the one returned. A caught KeyError, IndexError or decode error, and an invalid list, give the error record of the given message and `str()` of the input. Any other exception escapes, and only then does one escape. |
| JsonParser.MissingKeyGivesErrorRecord | backend/app/utils/json_parser.py:232-246 | A missing envelope key gives the error record, not an exception. |
| JsonParser.EnvelopeWithValidQuestions | backend/app/utils/json_parser.py:230-242 | An envelope whose text parses to a valid list yields exactly that list. |
| JsonParser.FromExtractedText | backend/app/utils/json_parser.py:167-185 | The regex fallbacks accept only a validated list. Any other outcome is the error record of the fallback's message and the raw text. |
| JsonParser.RegexExtractionFormat3 | backend/app/utils/json_parser.py:288-307 | Every record it returns is sound. |
| JsonParser.HandleFormat3 | backend/app/utils/json_parser.py:249-270 | Every record it returns is sound, whether it comes from parsing directly, after cleaning, or from the regex. |
| JsonParser.Format3StringParses | backend/app/utils/json_parser.py:249-270 | A string that parses to the envelope, directly or only after cleaning, yields the questions inside it. |
| JsonParser.HandleMarkdownWrapped | backend/app/utils/json_parser.py:28-71 | Every record it returns is sound. |
| JsonParser.RegexFallbackFormat2 | backend/app/utils/json_parser.py:163-185 | Every record it returns is sound. |
| JsonParser.TryAlternativeFormat2Fix | backend/app/utils/json_parser.py:145-185 | Every record it returns is sound. |
| JsonParser.HandleDirectJson | backend/app/utils/json_parser.py:74-95 | Every record it returns is sound. |
| JsonParser.AlternativeFixRepeatsFailure | backend/app/utils/json_parser.py:145-160 | The "alternative" fix repeats the same deterministic repair. When the first parse fails, only the regex fallback can still succeed. |
| JsonParser.ExtractQuestions | backend/app/utils/json_parser.py:6-25 | Never raises. Every result is sound, every success holds at least one question, and `success` holds exactly when the question list is non-empty. |
| JsonParser.DirectEnvelopeParses | backend/app/utils/json_parser.py:74-95 | Unfenced text whose repair parses to the envelope yields the questions inside it. |
| JsonParser.FencedFormat1Parses | backend/app/utils/json_parser.py:53-59 | A fenced block whose `formatted_questions` is the envelope yields the questions inside it. |
| JsonParser.MarkdownFormat1 | backend/app/utils/json_parser.py:53-59 | A dict under `formatted_questions` is handled as format 1. |
| JsonParser.EscapedExceptionBecomesErrorRecord | backend/app/utils/json_parser.py:23-25 | An exception no handler catches ends as a "Parser error" record over the original text. |
| Types.TopicNameRoundTrip | frontend/src/types/index.ts:23-36 | Each of the ten topic names reads back as its topic, so the names are distinct. |
| Api.RequestRoundTrip | frontend/src/services/api.ts:43-47 | The request body carries topic, difficulty and count unchanged. |
| Api.TransformQuestion | frontend/src/services/api.ts:20-31 | The id is the decimal numeral of index + 1, with no leading zero. `correct_answer` becomes `correctAnswer`, and the other fields are copied. |
| Api.TransformAll | frontend/src/services/api.ts:63-64 | The mapping keeps length and order and transforms each question at its own index. |
| Api.TransformedIdsDistinct | frontend/src/services/api.ts:25 | The transformed questions have pairwise distinct ids. |
| Api.Failed | frontend/src/services/api.ts:78-83 | The catch block returns failure with no questions and the error's message. |
| Api.FetchQuestions | frontend/src/services/api.ts:34-85 | Success exactly when HTTP is ok, the backend says `success` and `questions` is present. The questions are then the transformed list, with the backend's message. Every failure has no questions and a message. Nothing is thrown. |
| Api.HttpErrorMessage | frontend/src/services/api.ts:50-84 | A status outside 200..299 fails with "HTTP error! status: <code>" when the error body is read. When `response.text()` rejects, it fails with that rejection's own message instead. |
| Api.BackendFailureMessage | frontend/src/services/api.ts:61-73 | A 2xx reply without both `success` and a question list fails with the backend's non-empty message, or with "Failed to fetch questions" when the message is missing or empty. |
| QuizNavigation.Init | frontend/src/components/IndividualQuestionDisplay.tsx:13-16 | Starts at position 0 with N null answers. |
| QuizNavigation.Select | frontend/src/components/IndividualQuestionDisplay.tsx:28-33 | Records the option at the current position only, and the quiz invariant still holds. |
| QuizNavigation.Next | frontend/src/components/IndividualQuestionDisplay.tsx:35-41 | Never changes the answers. It either stands still, completes with the answers, or moves to the next position, keeping the invariant. |
| QuizNavigation.Previous | frontend/src/components/IndividualQuestionDisplay.tsx:43-47 | A no-op at position 0, otherwise one position back. The answers are untouched. |
| QuizNavigation.Skip | frontend/src/components/IndividualQuestionDisplay.tsx:49-55 | Never changes the answers. It completes with them or moves on, keeping the invariant. |
| QuizNavigation.NextCompletesIff | frontend/src/components/IndividualQuestionDisplay.tsx:25-41 | Next completes exactly on the last question with an answer chosen, and stands still exactly when no answer is chosen. |
| QuizNavigation.SkipCompletesIff | frontend/src/components/IndividualQuestionDisplay.tsx:49-55 | Skip completes exactly on the last question, and otherwise advances by one. |
| QuizNavigation.SkipKeepsEarlierSelection | frontend/src/components/IndividualQuestionDisplay.tsx:49-55 | An answer chosen before Skip is still in the answer array afterwards. |
| QuizNavigation.ReselectOverwrites | frontend/src/components/IndividualQuestionDisplay.tsx:28-33 | Choosing again overwrites the earlier choice. |
| QuizNavigation.PreviousUndoesForward | frontend/src/components/IndividualQuestionDisplay.tsx:35-55 | Previous undoes a step forward by Next or Skip. |
| QuizNavigation.ForwardUndoesPrevious | frontend/src/components/IndividualQuestionDisplay.tsx:43-55 | Skip undoes Previous. |
| QuizNavigation.Apply | frontend/src/components/IndividualQuestionDisplay.tsx:134-162 | Every button keeps the invariant. A completion hands over one answer per question, each null or a valid option position. |
| QuizNavigation.RunKeepsInvariant | frontend/src/components/IndividualQuestionDisplay.tsx:13-55 | Over any sequence of presses, every reachable state keeps the invariant, and a completion hands over N valid answers. |
| QuizNavigation.InitValid | frontend/src/components/IndividualQuestionDisplay.tsx:13-26 | The initial state is valid exactly when there is a question. Next and Previous start disabled. |
| FinalReport.ScoreUpTo | frontend/src/components/FinalReport.tsx:17-24 | The running score never exceeds the number of questions counted. |
| FinalReport.AnsweredUpTo | frontend/src/components/FinalReport.tsx:29-31 | The running answered count never exceeds the number of answers counted. |
| FinalReport.AnsweredUpToIsCount | frontend/src/components/FinalReport.tsx:29-31 | The answered count equals the size of the independent set of positions holding a non-null answer. |
| FinalReport.Percentage | frontend/src/components/FinalReport.tsx:28 | Undefined (NaN) exactly for zero questions. Otherwise it is the nearest integer to 100·score/total, with halves rounded up. It lies in 0..100, is 0 for score 0 and is 100 for a full score. |
| FinalReport.Summarize | frontend/src/components/FinalReport.tsx:17-32 | The score is the number of questions whose answer equals the correct one, and the answered count is the number of non-null answers. skipped = total − answered, incorrect = answered − score, and the percentage is that of score and total. |
| FinalReport.ScoreIsCount | frontend/src/components/FinalReport.tsx:17-24 | The score is the number of positions whose answer equals the correct one, so it is at most the total. |
| FinalReport.SummaryConsistent | frontend/src/components/FinalReport.tsx:26-32 | With one answer per question: score ≤ answered ≤ total, incorrect ≥ 0, skipped lies in 0..total, and correct + incorrect + skipped = total. |
| FinalReport.ScoreExtremes | frontend/src/components/FinalReport.tsx:17-28 | A full score exactly when every answer is right, giving 100%. Zero exactly when none is, giving 0%. |
| FinalReport.ScoreMessage | frontend/src/components/FinalReport.tsx:34-40 | The first threshold met decides: each message corresponds to exactly one band (≥90, 80–89, 70–79, 60–69, below 60 or NaN). |
| FinalReport.MessageMonotone | frontend/src/components/FinalReport.tsx:34-40 | A higher percentage never gets a lower message. |
| FinalReport.ScoreColor | frontend/src/components/FinalReport.tsx:42-46 | Green exactly at ≥80, yellow exactly at 60–79, red otherwise. |
| FinalReport.ColorAgreesWithMessage | frontend/src/components/FinalReport.tsx:34-46 | Green goes with the top two messages, yellow with the middle two, and red exactly with the lowest. |
| Review.InitCells | frontend/src/components/QuestionsDisplay.tsx:20-28 | One cell per question. Supplied answers give revealed cells holding those answers, and no answers give empty hidden cells. |
| Review.SelectAnswer | frontend/src/components/QuestionsDisplay.tsx:30-39 | A no-op on a revealed cell. Otherwise it sets that cell to the option, hidden, and leaves the other cells alone. |
| Review.Reveal | frontend/src/components/QuestionsDisplay.tsx:41-48 | Reveals one cell, keeps its selection and leaves the others alone. |
| Review.SkipQuestion | frontend/src/components/QuestionsDisplay.tsx:50-57 | Sets one cell to no answer, revealed, and leaves the others alone. |
| Review.RevealAll | frontend/src/components/QuestionsDisplay.tsx:59-65 | Reveals every cell and keeps every selection. |
| Review.RevealAllIdempotent | frontend/src/components/QuestionsDisplay.tsx:59-65 | Revealing all twice is revealing all once, and afterwards everything is revealed. |
| Review.ScoreUpTo | frontend/src/components/QuestionsDisplay.tsx:67-75 | The running score never exceeds the number of questions counted. |
| Review.ScoreAgreesWithReport | frontend/src/components/QuestionsDisplay.tsx:67-75 | The review's scorer counts exactly what the report's scorer counts over the selections. |
| Review.ReviewOfAnswersScoresAsReport | frontend/src/components/QuestionsDisplay.tsx:67-75 | Reviewing a finished quiz shows the report's score. |
| Review.ScoreLine | frontend/src/components/QuestionsDisplay.tsx:95-101 | The score line is shown exactly when every cell has a selection, with a score of at most N and its percentage. |
| Review.StatusOf | frontend/src/components/QuestionsDisplay.tsx:313-319 | Skipped exactly for no answer, Correct exactly for a match, Incorrect exactly for a wrong answer. |
| Review.ApplyOp | frontend/src/components/QuestionsDisplay.tsx:30-65 | Every offered action keeps one cell per question. |
| Review.RevealedCellsAreFinal | frontend/src/components/QuestionsDisplay.tsx:30-65 | No offered action hides a revealed cell or changes its selection. |
| Review.Perform | frontend/src/components/QuestionsDisplay.tsx:30-65 | Any sequence of actions keeps one cell per question. |
| Review.RevealIsMonotone | frontend/src/components/QuestionsDisplay.tsx:30-65 | Once revealed, a cell keeps its state through any later actions. |
| Review.ReviewIsReadOnly | frontend/src/components/QuestionsDisplay.tsx:20-31 | In the review of a finished quiz, nothing the user does changes any cell. |
| TopicSelector.PickPredefined | frontend/src/components/TopicSelector.tsx:21-25 | Clears the custom text and flag, and reports the topic's name. |
| TopicSelector.CustomChange | frontend/src/components/TopicSelector.tsx:27-35 | Keeps the raw text. It reports the trimmed text, and sets the flag, exactly when the trimmed text is non-empty. |
| TopicSelector.PickHighlightsExactlyThatCard | frontend/src/components/TopicSelector.tsx:21-25 | After a card is picked, exactly that card is highlighted and Continue is enabled. |
| TopicSelector.CustomReportsTrimmed | frontend/src/components/TopicSelector.tsx:27-32 | A custom topic is non-empty with no surrounding whitespace, enables Continue, and leaves no card highlighted. |
| TopicSelector.BlankCustomKeepsTopic | frontend/src/components/TopicSelector.tsx:33-35 | A blank custom text keeps the form's topic and gives the highlight back to the cards. |
| TopicSelector.TopicDescription | frontend/src/components/TopicSelector.tsx:163-177 | Every topic has a non-empty description. |
| TopicSelector.DescriptionsDistinct | frontend/src/components/TopicSelector.tsx:163-177 | Different topics have different descriptions. |
| TriviaForm.TopicNext | frontend/src/components/TriviaForm.tsx:28-32 | Moves to the difficulty step exactly when a topic is chosen, and otherwise changes nothing. Only the step ever changes. |
| TriviaForm.DifficultyNext | frontend/src/components/TriviaForm.tsx:34-38 | Moves to the count step exactly when a difficulty is chosen, and otherwise changes nothing. Only the step ever changes. |
| TriviaForm.Back | frontend/src/components/TriviaForm.tsx:71-79 | Leaves the form exactly from the topic step. From difficulty it goes to topic, and from count to difficulty. |
| TriviaForm.BackUndoesNext | frontend/src/components/TriviaForm.tsx:71-79 | Back undoes a step forward. |
| TriviaForm.Prefix | frontend/src/components/TriviaForm.tsx:57 | `slice(0, n)` is an order-preserving prefix of length min(len, n). |
| TriviaForm.Begin | frontend/src/components/TriviaForm.tsx:43-44 | Starting sets loading, clears the error and shows the loading screen. Nothing else changes. |
| TriviaForm.Finish | frontend/src/components/TriviaForm.tsx:55-68 | Questions are handed on exactly on success, cut to the count. The error is set exactly on failure, and loading ends. |
| TriviaForm.Start | frontend/src/components/TriviaForm.tsx:40-69 | A no-op unless topic, difficulty and a non-zero count are set. It always ends not loading and keeps the selections. |
| TriviaForm.StartOutcome | frontend/src/components/TriviaForm.tsx:53-68 | Questions are handed on exactly when the service delivers: a prefix, no longer than the count, of the transformed list. Otherwise the error screen shows. |
| TriviaForm.RetrySendsSameRequest | frontend/src/components/TriviaForm.tsx:93-95 | Try Again keeps the selections, so it sends the same request, and it clears the error first. |
| TriviaForm.Apply | frontend/src/components/TriviaForm.tsx:28-128 | Questions are handed on only from the count or error screen of a ready form. The form is left exactly by Back on the topic screen. |
| TriviaForm.StartSignal | frontend/src/components/TriviaForm.tsx:40-69 | Handed-on questions come from a ready form and number at most the count. Starting never leaves the form. |
| TriviaForm.ApplyKeepsStepsInOrder | frontend/src/components/TriviaForm.tsx:28-79 | Every event keeps the steps in order: difficulty only with a topic, count only with a difficulty, never stuck loading, and the error only after a ready start. |
| TriviaForm.RunKeepsStepsInOrder | frontend/src/components/TriviaForm.tsx:28-95 | The same over any sequence of events. Handed-on questions never exceed the chosen count. |
| AppFlow.Handle | frontend/src/App.tsx:22-57 | Loading questions stores them with one null answer each. Completing stores exactly the emitted answers. Every other handler keeps questions and answers. |
| AppFlow.OnlyAlongEdges | frontend/src/App.tsx:22-57 | Every change of screen is one of the eight arrows. |
| AppFlow.EveryEdgeTaken | frontend/src/App.tsx:22-57 | Every one of the eight arrows can be taken. |
| AppFlow.LoadAndComplete | frontend/src/App.tsx:26-35 | Loading shows the quiz with N answers. Completing shows the report with exactly the emitted answers. |
| AppFlow.BackToSetupKeepsData | frontend/src/App.tsx:47-53 | Going back to the setup or to the welcome screen keeps the questions and answers. |
| AppFlow.RunStaysConsistent | frontend/src/App.tsx:18-57 | Over any run of events in which the quiz hands over one answer per question, the answers stay as many as the questions. |
| AppFlow.InitialConsistent | frontend/src/App.tsx:18-20 | The application starts on the welcome screen with no questions and no answers. |
| Pipeline.ParsedQuestionsStartAValidQuiz | backend/app/utils/json_parser.py:312-313 | When the service forwards a parser result that meets the parser's guarantee, the form hands on at least one question and the quiz starts valid. Every result of `ExtractQuestions` meets that guarantee. |
| Pipeline.EmptySuccessReachesQuiz | frontend/src/components/TriviaForm.tsx:55-58 | A successful reply with no questions still reaches the quiz screen, where no state is valid. |
| Pipeline.CompletedQuizFits | frontend/src/App.tsx:32-35 | A finished quiz hands over one answer per question, so the application's arrays stay the same length. |

## Left out

- Python's `json.loads`, `str()` of a parsed value and `str()` of an exception are parameters of `JsonParser.Host`. Their results are not modelled.
- The two regular-expression searches of the last-resort fallbacks (backend/app/utils/json_parser.py:164, 290) are `Host` parameters returning the matched group. The cleaning, parsing, validation and error text around them are modelled.
- `print` logging in the backend parser and `console.log` in the frontend have no effect on results and are omitted.
- backend/app/mcp_server/server.py, backend/app/mcp_client/client.py and backend/main.py are not part of this model. They hold the LLM agent runner, session state and HTTP routing. In particular, the serialisation of accepted question records into the HTTP reply is not modelled; `Pipeline.Carries` assumes one question per accepted record.
- The `fetch` call, `response.text()` and `response.json()` (frontend/src/services/api.ts:38-58) are inputs: `Api.Transport` gives either a rejected fetch with its message, or a status with the outcome of each body read. Each read either resolves or rejects with a message. The contents of the error body are only logged and are not modelled.
- FinalReport.Percentage: computed exactly with integer arithmetic, halves rounded up. Floating-point error in `score / total * 100` before `Math.round` is not modelled.
- The quiz's progress bar (frontend/src/components/IndividualQuestionDisplay.tsx:57) is a floating-point display value and is omitted.
- React rendering, styling and the timing of `useState`/`useEffect` are left out. Each handler is one atomic transition. The quiz's `selectedAnswer` is always `answers[index]` once its effect has run, so it is derived rather than stored.
- TriviaForm.Start: the request is modelled as resolving at once. `Begin` states the loading state in between. The `catch` branch (frontend/src/components/TriviaForm.tsx:63-65) cannot be reached, because the client never throws (`Api.FetchQuestions` is total).
- The topic picker's own state is reset whenever the topic step remounts; `TriviaForm.Form` does not carry it. Its effect on the form is the topic it reports, modelled by `TopicSelector.TopicAfter`.
- The custom topic field's `maxLength={30}` is enforced by the browser and is not modelled.
- WelcomeSection.tsx, ErrorDisplay.tsx, DifficultySelector.tsx and QuestionCountSelector.tsx hold only constant labels and Continue guards. Those guards are covered by `TriviaForm.TopicNext`, `TriviaForm.DifficultyNext` and `TriviaForm.Ready`.
- The count picker offers only 5, 10, 15 and 20 (frontend/src/components/QuestionCountSelector.tsx:10). `TriviaForm.Event` accepts any natural count, so every property proved for the form covers these four.
- Review.InitCells: requires the supplied answer array to have one entry per question. The application always passes such an array (`AppFlow.RunStaysConsistent`). A shorter array would give `undefined` cells, which are neither null nor a match, and this is not modelled.
- Quiz skip: the code does not clear an earlier answer when a question is skipped. The model follows the code (`QuizNavigation.SkipKeepsEarlierSelection`), not a reading of Skip as "mark unanswered".
- "Exactly one screen is active" holds by construction: `AppFlow.Screen` is an enumeration.
- The markdown path's second `in` test (backend/app/utils/json_parser.py:66) cannot raise, because the first one (line 53) has already succeeded on the same value. The model therefore does not propagate an exception there.
- JsonParser.Host: `loads` fails only with a decode error. Python's `json.loads` can also raise RecursionError on very deeply nested input, and ValueError on an integer literal longer than the interpreter's digit limit. None of the handlers at backend/app/utils/json_parser.py:48-304 catches either of these. Both would reach the outer handler (line 23) and give a "Parser error: …" record. The model never produces these two exceptions.
- Json.PyExc: KeyError, IndexError and TypeError carry no message. Two TypeErrors whose Python texts differ (`argument of type 'int' is not iterable`, `string indices must be integers`) therefore give one `Host.describe` result. The text of a "Parser error: …" record is modelled only up to the kind of exception.

=== FILE: api.dfy ===
/** The question service client (frontend/src/services/api.ts). The `fetch`
    call and the reading of the response body are abstracted into a
    `Transport` outcome chosen by the caller-supplied `send`; everything the
    client does with that outcome is modelled. */
module Api {
  import opened Wrappers
  import opened Text
  import opened Types
  import Json

  /** `BackendTriviaQuestion`, as the backend serialises it. */
  datatype BackendQuestion = BackendQuestion(
    question: string,
    options: seq<string>,
    correctAnswer: int,
    explanation: Option<string>)

  /** `BackendApiResponse`; `questions` is `None` when the field is absent or null. */
  datatype BackendBody = BackendBody(
    success: bool,
    questions: Option<seq<BackendQuestion>>,
    message: Option<string>)

  /** What one POST to `/api/get-questions` comes back as: a rejected fetch
      with its error message, or a reply with an HTTP status and the outcome
      of reading its body. Outside 2xx the client reads `response.text()`
      (`errorText`); inside it reads `response.json()` (`body`). A failed read
      carries the rejection's message. */
  datatype Transport =
    | NetworkFailure(message: string)
    | Reply(status: nat, errorText: Result<string, string>, body: Result<BackendBody, string>)

  /** `response.ok`. */
  predicate IsOk(status: nat) {
    200 <= status <= 299
  }

  /** The request body `{topic, difficulty, count}` as a JSON object. */
  function EncodeRequest(config: Config): Json.Value {
    Json.Object(map[
      "topic" := Json.Str(config.topic),
      "difficulty" := Json.Str(DifficultyName(config.difficulty)),
      "count" := Json.Int(config.count)])
  }

  function DifficultyNamed(name: string): Option<Difficulty> {
    if name == "easy" then Some(Easy)
    else if name == "medium" then Some(Medium)
    else if name == "hard" then Some(Hard)
    else None
  }

  /** Reads the three fields of a request body back. */
  function DecodeRequest(body: Json.Value): Option<Config> {
    if !body.Object? then None
    else if "topic" !in body.fields || "difficulty" !in body.fields || "count" !in body.fields then None
    else
      var topic := body.fields["topic"];
      var difficulty := body.fields["difficulty"];
      var count := body.fields["count"];
      if !topic.Str? || !difficulty.Str? || !count.Int? then None
      else
        match DifficultyNamed(difficulty.s)
        case None => None
        case Some(d) => Some(Config(topic.s, d, count.i))
  }

  /** The request carries topic, difficulty and count unchanged. */
  lemma RequestRoundTrip(config: Config)
    ensures DecodeRequest(EncodeRequest(config)) == Some(config)
  {
  }

  /** `transformQuestion`: position `index` gets the id `index + 1` in decimal
      and `correct_answer` is renamed; everything else is copied. */
  function TransformQuestion(q: BackendQuestion, index: nat): (r: Question)
    ensures IsNumeral(r.id, index + 1) && r.id[0] != '0'
    ensures r.question == q.question && r.options == q.options
    ensures r.correctAnswer == q.correctAnswer && r.explanation == q.explanation
  {
    DecimalRoundTrip(index + 1);
    Question(Decimal(index + 1), q.question, q.options, q.correctAnswer, q.explanation)
  }

  /** `backendResponse.questions.map(transformQuestion)`. */
  function TransformAll(qs: seq<BackendQuestion>): (r: seq<Question>)
    ensures |r| == |qs|
    ensures forall i | 0 <= i < |qs| :: r[i] == TransformQuestion(qs[i], i)
  {
    seq(|qs|, i requires 0 <= i < |qs| => TransformQuestion(qs[i], i))
  }

  /** The transformed questions have pairwise distinct ids "1".."n". */
  lemma TransformedIdsDistinct(qs: seq<BackendQuestion>)
    ensures var r := TransformAll(qs);
            forall i, j | 0 <= i < j < |r| :: r[i].id != r[j].id
  {
    var r := TransformAll(qs);
    forall i, j | 0 <= i < j < |r| ensures r[i].id != r[j].id {
      DecimalInjective(i + 1, j + 1);
    }
  }

  const DefaultFailure: string := "Failed to fetch questions"

  /** The catch block's result. */
  function Failed(message: string): (r: ApiResponse)
    ensures !r.success && r.questions == [] && r.message == Some(message)
  {
    ApiResponse([], false, Some(message))
  }

  /** The success test `backendResponse.success && backendResponse.questions`:
      an array is truthy even when empty. */
  predicate Delivers(t: Transport) {
    && t.Reply?
    && IsOk(t.status)
    && t.body.Success?
    && t.body.value.success
    && t.body.value.questions.Some?
  }

  /** `fetchQuestions`: exactly one request, and every outcome becomes a
      tagged result; nothing is thrown past this function. */
  function FetchQuestions(config: Config, send: Json.Value -> Transport): (r: ApiResponse)
    ensures var t := send(EncodeRequest(config));
            && (r.success <==> Delivers(t))
            && (Delivers(t) ==> && r.questions == TransformAll(t.body.value.questions.value)
                                && r.message == t.body.value.message)
            && (!r.success ==> r.questions == [] && r.message.Some?)
  {
    match send(EncodeRequest(config))
    case NetworkFailure(message) => Failed(message)
    case Reply(status, errorText, body) =>
      if !IsOk(status) then
        match errorText
        case Failure(message) => Failed(message)   // `await response.text()` rejected
        case Success(_) => Failed("HTTP error! status: " + Decimal(status))
      else match body
        case Failure(message) => Failed(message)
        case Success(b) =>
          if b.success && b.questions.Some? then
            ApiResponse(TransformAll(b.questions.value), true, b.message)
          else
            // `backendResponse.message || "Failed to fetch questions"`: an empty message is falsy
            Failed(if b.message.Some? && b.message.value != "" then b.message.value else DefaultFailure)
  }

  /** A status outside 200..299 fails with "HTTP error! status: <code>" once
      the error body has been read, and with the read's own message when
      reading it fails. */
  lemma HttpErrorMessage(config: Config, send: Json.Value -> Transport)
    requires send(EncodeRequest(config)).Reply? && !IsOk(send(EncodeRequest(config)).status)
    ensures var t := send(EncodeRequest(config));
            t.errorText.Success? ==> FetchQuestions(config, send) == Failed("HTTP error! status: " + Decimal(t.status))
    ensures var t := send(EncodeRequest(config));
            t.errorText.Failure? ==> FetchQuestions(config, send) == Failed(t.errorText.error)
  {
  }

  /** A 2xx reply without `success` and a question list fails with the
      backend's message, or the default text when that message is missing or
      empty. */
  lemma BackendFailureMessage(config: Config, send: Json.Value -> Transport, status: nat, b: BackendBody)
    requires send(EncodeRequest(config)).Reply?
    requires send(EncodeRequest(config)).status == status && send(EncodeRequest(config)).body == Success(b)
    requires IsOk(status) && !(b.success && b.questions.Some?)
    ensures b.message.Some? && b.message.value != "" ==> FetchQuestions(config, send) == Failed(b.message.value)
    ensures b.message.None? || b.message == Some("") ==> FetchQuestions(config, send) == Failed(DefaultFailure)
  {
  }
}

=== FILE: app.dfy ===
/** The application's screen flow (frontend/src/App.tsx): which screen is
    mounted, the loaded questions and the answer array handed from the quiz
    to the report and the review. Each event is a callback of the mounted
    screen; a callback of a screen that is not mounted cannot fire. */
module AppFlow {
  import opened Wrappers
  import opened Types

  datatype Screen = Welcome | Setup | Quiz | Report | ReviewScreen

  datatype AppState = AppState(screen: Screen, questions: seq<Question>, answers: seq<Answer>)

  const Initial: AppState := AppState(Welcome, [], [])

  datatype Event =
    | Start                              // WelcomeSection onStart
    | BackToWelcome                      // TriviaForm onBack
    | QuestionsLoaded(loaded: seq<Question>)  // TriviaForm onQuestionsLoaded
    | QuizComplete(emitted: seq<Answer>)      // IndividualQuestionDisplay onComplete
    | ExitQuiz                           // IndividualQuestionDisplay onBack
    | ReviewAnswers                      // FinalReport onReviewAnswers
    | Restart                            // FinalReport onRestart
    | BackToReport                       // QuestionsDisplay onBack

  /** The screen whose callback an event is. */
  function Source(e: Event): Screen {
    match e
    case Start => Welcome
    case BackToWelcome => Setup
    case QuestionsLoaded(_) => Setup
    case QuizComplete(_) => Quiz
    case ExitQuiz => Quiz
    case ReviewAnswers => Report
    case Restart => Report
    case BackToReport => ReviewScreen
  }

  /** The handler an event runs. */
  function Handle(s: AppState, e: Event): (r: AppState)
    ensures e.QuestionsLoaded? ==> && r.questions == e.loaded
                                   && |r.answers| == |e.loaded|
                                   && forall i | 0 <= i < |r.answers| :: r.answers[i] == None
    ensures e.QuizComplete? ==> r.answers == e.emitted && r.questions == s.questions
    ensures !e.QuestionsLoaded? && !e.QuizComplete? ==> r.questions == s.questions && r.answers == s.answers
  {
    match e
    case Start => s.(screen := Setup)
    case BackToWelcome => s.(screen := Welcome)
    case QuestionsLoaded(loaded) => AppState(Quiz, loaded, seq(|loaded|, _ => None))
    case QuizComplete(emitted) => s.(screen := Report, answers := emitted)
    case ExitQuiz => s.(screen := Setup)
    case ReviewAnswers => s.(screen := ReviewScreen)
    case Restart => s.(screen := Setup)
    case BackToReport => s.(screen := Report)
  }

  /** An event takes effect only while its screen is mounted. */
  function Apply(s: AppState, e: Event): AppState {
    if Source(e) == s.screen then Handle(s, e) else s
  }

  /** The arrows of the flow. */
  predicate Edge(a: Screen, b: Screen) {
    || (a == Welcome && b == Setup)
    || (a == Setup && b == Welcome)
    || (a == Setup && b == Quiz)
    || (a == Quiz && b == Setup)
    || (a == Quiz && b == Report)
    || (a == Report && b == Setup)
    || (a == Report && b == ReviewScreen)
    || (a == ReviewScreen && b == Report)
  }

  /** Every change of screen follows an arrow. */
  lemma OnlyAlongEdges(s: AppState, e: Event)
    ensures Apply(s, e).screen != s.screen ==> Edge(s.screen, Apply(s, e).screen)
  {
  }

  /** An event that follows a given arrow. */
  function EventFor(a: Screen, b: Screen): Event
    requires Edge(a, b)
  {
    if a == Welcome then Start
    else if a == Setup && b == Welcome then BackToWelcome
    else if a == Setup then QuestionsLoaded([])
    else if a == Quiz && b == Setup then ExitQuiz
    else if a == Quiz then QuizComplete([])
    else if a == Report && b == Setup then Restart
    else if a == Report then ReviewAnswers
    else BackToReport
  }

  /** Every arrow can be taken. */
  lemma EveryEdgeTaken(s: AppState, b: Screen)
    requires Edge(s.screen, b)
    ensures Apply(s, EventFor(s.screen, b)).screen == b
  {
  }

  /** Loading questions gives one null answer per question; completing the
      quiz stores exactly the emitted answers and shows the report. */
  lemma LoadAndComplete(s: AppState, loaded: seq<Question>, emitted: seq<Answer>)
    requires s.screen == Setup
    ensures var q := Apply(s, QuestionsLoaded(loaded));
            && q.screen == Quiz && q.questions == loaded && |q.answers| == |loaded|
            && var r := Apply(q, QuizComplete(emitted));
               r.screen == Report && r.answers == emitted && r.questions == loaded
  {
  }

  /** Going back to the setup keeps the questions and answers held here. */
  lemma BackToSetupKeepsData(s: AppState, e: Event)
    requires e in {ExitQuiz, Restart, BackToWelcome}
    ensures Apply(s, e).questions == s.questions && Apply(s, e).answers == s.answers
  {
  }

  /** The answer array matches the question list, provided the quiz emits
      one answer per question (which the quiz screen guarantees). */
  predicate Consistent(s: AppState) {
    |s.answers| == |s.questions|
  }

  predicate Fits(s: AppState, e: Event) {
    e.QuizComplete? ==> |e.emitted| == |s.questions|
  }

  function Run(s: AppState, events: seq<Event>): AppState
    decreases |events|
  {
    if events == [] then s else Run(Apply(s, events[0]), events[1..])
  }

  /** Events that fit keep the answers in step with the questions, from the
      initial state on; the report and the review therefore always get two
      arrays of the same length. */
  lemma {:induction false} RunStaysConsistent(s: AppState, events: seq<Event>)
    requires Consistent(s)
    requires forall k | 0 <= k < |events| :: Fits(Run(s, events[..k]), events[k])
    ensures Consistent(Run(s, events))
    decreases |events|
  {
    if events != [] {
      var next := Apply(s, events[0]);
      assert events[..0] == [];
      assert Fits(s, events[0]);
      forall k | 0 <= k < |events[1..]|
        ensures Fits(Run(next, events[1..][..k]), events[1..][k])
      {
        assert events[..k + 1] == [events[0]] + events[1..][..k];
        assert Run(s, events[..k + 1]) == Run(next, events[1..][..k]);
      }
      RunStaysConsistent(next, events[1..]);
    }
  }

  lemma InitialConsistent()
    ensures Initial.screen == Welcome && Consistent(Initial)
  {
  }
}

=== FILE: json.dfy ===
/** JSON values as Python's `json.loads` produces them (dict, list, str, int,
    float, bool, None), together with the Python operators the backend parser
    applies to them: `in`, subscripting and `isinstance`. Operators that raise
    in Python return a `Failure` carrying the exception. */
module Json {
  import opened Wrappers
  import Text

  datatype Value =
    | Null
    | Bool(b: bool)
    | Int(i: int)
    | Float(literal: string)       // a float is only ever compared by type here
    | Str(s: string)
    | Array(items: seq<Value>)
    | Object(fields: map<string, Value>)

  /** The exceptions the parser distinguishes. */
  datatype PyExc =
    | KeyError
    | IndexError
    | TypeError
    | DecodeError(message: string)   // json.JSONDecodeError and its text

  /** A subscript key: a string key or a non-negative list/string position. */
  datatype Key = Name(name: string) | Position(n: nat)

  /** `isinstance(v, list)`. */
  predicate IsList(v: Value) {
    v.Array?
  }

  /** `isinstance(v, dict)`. */
  predicate IsDict(v: Value) {
    v.Object?
  }

  /** `isinstance(v, int)`: a Python `bool` is an `int`. */
  predicate IsPyInt(v: Value) {
    v.Int? || v.Bool?
  }

  /** Python's `key in container` for a string key. A dict tests its keys, a
      list tests its elements for equality, a string tests for a substring;
      any other value raises TypeError. */
  function Contains(container: Value, key: string): (r: Result<bool, PyExc>)
    ensures r.Failure? <==> !(container.Object? || container.Array? || container.Str?)
    ensures r.Failure? ==> r.error == TypeError
    ensures container.Object? ==> r == Success(key in container.fields)
    ensures container.Array? ==> (r == Success(true) <==> Str(key) in container.items)
    ensures container.Str? ==> r == Success(Text.Occurs(container.s, key))
  {
    match container
    case Object(m) => Success(key in m)
    case Array(a) => Success(exists k | 0 <= k < |a| :: a[k] == Str(key))
    case Str(s) => Success(Text.Occurs(s, key))
    case _ => Failure(TypeError)
  }

  /** Python's `container[key]` on a parsed JSON value. */
  function Subscript(container: Value, key: Key): (r: Result<Value, PyExc>)
    ensures container.Object? && key.Name? && key.name in container.fields
            ==> r == Success(container.fields[key.name])
    ensures container.Array? && key.Position? && key.n < |container.items|
            ==> r == Success(container.items[key.n])
    ensures r.Failure? && r.error == KeyError <==> container.Object? && !(key.Name? && key.name in container.fields)
    ensures r.Failure? && r.error == IndexError
            <==> key.Position? && (container.Array? || container.Str?) && key.n >= Length(container)
    ensures r.Failure? && r.error == TypeError
            <==> !container.Object? && !(key.Position? && (container.Array? || container.Str?))
    ensures container.Str? && key.Position? && key.n < |container.s|
            ==> r == Success(Str([container.s[key.n]]))
    ensures r.Failure? ==> r.error in {KeyError, IndexError, TypeError}
  {
    match container
    case Object(m) =>
      if key.Name? && key.name in m then Success(m[key.name])
      else Failure(KeyError)    // JSON object keys are strings, so an int key is missing too
    case Array(a) =>
      if key.Name? then Failure(TypeError)
      else if key.n < |a| then Success(a[key.n])
      else Failure(IndexError)
    case Str(s) =>
      if key.Name? then Failure(TypeError)
      else if key.n < |s| then Success(Str([s[key.n]]))
      else Failure(IndexError)
    case _ => Failure(TypeError)   // None, bool, int and float are not subscriptable
  }

  /** Python's `len` on a list or a string. */
  function Length(v: Value): nat {
    match v
    case Array(a) => |a|
    case Str(s) => |s|
    case _ => 0
  }
}

=== FILE: json_parser.dfy ===
/** The backend's parser for the question-generation agent's final reply
    (backend/app/utils/json_parser.py). The reply reaches it in one of three
    shapes: markdown-fenced JSON whose `formatted_questions` is an object
    (format 1) or a JSON-encoded string (format 3), or bare JSON with a
    `get_trivia_questions_response` envelope (format 2). Each path repairs the
    text, parses it, walks the envelope to the question text, parses that and
    validates the question list; every failure becomes an error record.

    What the model cannot see is a parameter: `json.loads`, Python's `str()`
    of a dict and of an exception, and the two regular-expression searches of
    the last-resort fallbacks. */
module JsonParser {
  import opened Wrappers
  import opened Text
  import opened Json
  import TextFields

  /** The operations of the Python runtime the parser relies on. */
  datatype Host = Host(
    loads: string -> Result<Value, string>,   // json.loads; a failure carries str(JSONDecodeError)
    repr: Value -> string,                    // str(obj) of a parsed value
    describe: PyExc -> string,                // str(e) of an escaped exception
    questionsRegex: string -> Option<string>, // group 0 of the format-2 question-array search
    format3Regex: string -> Option<string>)   // group 1 of the format-3 "text" search

  /** The dict the parser returns: `{"success": True, "questions": ...}` or
      the error record of `create_error_response`. */
  datatype ParseResult =
    | Parsed(questions: seq<Value>)
    | ParseError(error: string, rawResponse: string)
  {
    function Success(): bool {
      Parsed?
    }

    /** The `questions` entry: an error record carries `[]`. */
    function Questions(): seq<Value> {
      if Parsed? then questions else []
    }
  }

  const RawLimit: nat := 500

  /** What every record the parser builds satisfies: a success carries a
      list that passed validation, an error keeps at most 503 characters of
      the raw text. */
  ghost predicate Sound(r: ParseResult) {
    && (r.Parsed? ==> ValidQuestionList(Array(r.questions)))
    && (r.ParseError? ==> |r.rawResponse| <= RawLimit + 3)
  }

  /** `create_error_response`: at most 500 characters of the raw text are
      kept, and a cut is marked by `...`. */
  function CreateErrorResponse(message: string, raw: string): (r: ParseResult)
    ensures !r.Success() && r.Questions() == [] && r.error == message
    ensures |raw| <= RawLimit ==> r.rawResponse == raw
    ensures |raw| > RawLimit ==> (&& |r.rawResponse| == RawLimit + 3
                                  && r.rawResponse[..RawLimit] == raw[..RawLimit]
                                  && EndsWith(r.rawResponse, "..."))
  {
    ParseError(message, if |raw| > RawLimit then raw[..RawLimit] + "..." else raw)
  }

  // ---------------------------------------------------------------------------
  // Validation
  // ---------------------------------------------------------------------------

  /** One element as `validate_questions_format` accepts it: a dict with the
      four required keys, a list of at least two options, and an `int`
      `correct_answer` (a `bool` is an `int` in Python; the range is not checked). */
  predicate IsQuestionRecord(v: Value) {
    && v.Object?
    && "question" in v.fields
    && "options" in v.fields
    && "correct_answer" in v.fields
    && "explanation" in v.fields
    && IsList(v.fields["options"]) && |v.fields["options"].items| >= 2
    && IsPyInt(v.fields["correct_answer"])
  }

  /** The reference meaning of a valid question list. */
  ghost predicate ValidQuestionList(v: Value) {
    && v.Array?
    && |v.items| > 0
    && forall k | 0 <= k < |v.items| :: IsQuestionRecord(v.items[k])
  }

  /** The element loop of `validate_questions_format`, which returns False at
      the first element that fails. */
  function AllQuestionRecords(items: seq<Value>, from: nat): (ok: bool)
    requires from <= |items|
    ensures ok <==> forall k | from <= k < |items| :: IsQuestionRecord(items[k])
    decreases |items| - from
  {
    if from == |items| then true
    else if !IsQuestionRecord(items[from]) then false
    else AllQuestionRecords(items, from + 1)
  }

  /** `validate_questions_format`. */
  function ValidateQuestionsFormat(v: Value): (ok: bool)
    ensures ok <==> ValidQuestionList(v)
  {
    if !IsList(v) || |v.items| == 0 then false
    else AllQuestionRecords(v.items, 0)
  }

  /** The validator only checks the type of `correct_answer`: an index past
      the options, a negative one and a boolean all pass. */
  lemma ValidatorIgnoresAnswerRange(question: Value, options: seq<Value>, answer: Value)
    requires |options| >= 2
    requires answer.Int? || answer.Bool?
    ensures ValidateQuestionsFormat(Array([Object(map[
              "question" := question, "options" := Array(options),
              "correct_answer" := answer, "explanation" := Null])]))
  {
    var rec := Object(map["question" := question, "options" := Array(options),
                          "correct_answer" := answer, "explanation" := Null]);
    assert IsQuestionRecord(rec);
    assert ValidQuestionList(Array([rec]));
  }

  // ---------------------------------------------------------------------------
  // Text repairs
  // ---------------------------------------------------------------------------

  /** `clean_extracted_questions_text`: escapes literal control characters
      and collapses escapes that were already escaped. */
  function CleanExtractedQuestionsText(text: string): (r: string)
    ensures '\n' !in r && '\t' !in r && '\r' !in r
  {
    var a := ReplaceAll(text, "\n", "\\n");
    ReplaceAllRemovesChar(text, '\n', "\\n");
    var b := ReplaceAll(a, "\t", "\\t");
    ReplaceAllRemovesChar(a, '\t', "\\t");
    var c := ReplaceAll(b, "\r", "\\r");
    ReplaceAllRemovesChar(b, '\r', "\\r");
    var d := ReplaceAll(c, "\\\\n", "\\n");
    var e := ReplaceAll(d, "\\\\t", "\\t");
    var f := ReplaceAll(e, "\\\\r", "\\r");
    var g := ReplaceAll(f, "\\\\\"", "\"");
    ReplaceAll(g, "\\\\/", "/")
  }

  /** Text with no backslash and no control character is already clean. */
  lemma CleanExtractedQuestionsTextKeepsPlainText(text: string)
    requires '\\' !in text
    requires '\n' !in text && '\t' !in text && '\r' !in text
    ensures CleanExtractedQuestionsText(text) == text
  {
    HeadAbsentNotOccurs(text, "\n");
    ReplaceAllAbsent(text, "\n", "\\n");
    HeadAbsentNotOccurs(text, "\t");
    ReplaceAllAbsent(text, "\t", "\\t");
    HeadAbsentNotOccurs(text, "\r");
    ReplaceAllAbsent(text, "\r", "\\r");
    HeadAbsentNotOccurs(text, "\\\\n");
    ReplaceAllAbsent(text, "\\\\n", "\\n");
    HeadAbsentNotOccurs(text, "\\\\t");
    ReplaceAllAbsent(text, "\\\\t", "\\t");
    HeadAbsentNotOccurs(text, "\\\\r");
    ReplaceAllAbsent(text, "\\\\r", "\\r");
    HeadAbsentNotOccurs(text, "\\\\\"");
    ReplaceAllAbsent(text, "\\\\\"", "\"");
    HeadAbsentNotOccurs(text, "\\\\/");
    ReplaceAllAbsent(text, "\\\\/", "/");
  }

  /** `clean_triple_escaped_json`: every rule maps a pattern to something
      shorter, so the text never grows. */
  function CleanTripleEscapedJson(text: string): (r: string)
    ensures |r| <= |text|
  {
    var a := ReplaceAll(text, "\\\\\"", "\"");
    var b := ReplaceAll(a, "\\n", "\n");
    var c := ReplaceAll(b, "\\t", "\t");
    var d := ReplaceAll(c, "\\r", "\r");
    var e := ReplaceAll(d, "\\/", "/");
    ReplaceAll(e, "\\\\", "\\")
  }

  /** Text without any of the escape patterns passes through unchanged. */
  lemma CleanTripleEscapedJsonUnchanged(text: string)
    requires !Occurs(text, "\\\\\"") && !Occurs(text, "\\n") && !Occurs(text, "\\t")
    requires !Occurs(text, "\\r") && !Occurs(text, "\\/") && !Occurs(text, "\\\\")
    ensures CleanTripleEscapedJson(text) == text
  {
    ReplaceAllAbsent(text, "\\\\\"", "\"");
    ReplaceAllAbsent(text, "\\n", "\n");
    ReplaceAllAbsent(text, "\\t", "\t");
    ReplaceAllAbsent(text, "\\r", "\r");
    ReplaceAllAbsent(text, "\\/", "/");
    ReplaceAllAbsent(text, "\\\\", "\\");
  }

  /** The markdown fence removal of `handle_markdown_wrapped_formats`. */
  function StripFences(text: string): (r: string)
    ensures |r| <= |text|
    ensures |r| > 0 ==> !IsPyWhitespace(r[0]) && !IsPyWhitespace(r[|r| - 1])
  {
    Unfence(PyStrip(text))
  }

  /** The fence removal proper, on the already stripped reply. */
  function Unfence(cleaned: string): (r: string)
    ensures |r| <= |cleaned|
    ensures |r| > 0 ==> !IsPyWhitespace(r[0]) && !IsPyWhitespace(r[|r| - 1])
  {
    var unfenced := if StartsWith(cleaned, "```json") then cleaned[7..]
                  else if StartsWith(cleaned, "```") then cleaned[3..]
                  else cleaned;
    var closed := if EndsWith(unfenced, "```") then unfenced[..|unfenced| - 3] else unfenced;
    PyStrip(closed)
  }

  /** A fenced block loses its fences and the whitespace around its body. */
  lemma StripFencesOfFencedBlock(body: string)
    ensures StripFences("```json" + body + "```") == PyStrip(body)
  {
    var t := "```json" + body + "```";
    StripClean(t, IsPyWhitespace);
    assert StartsWith(t, "```json");
    var unfenced := t[7..];
    assert unfenced == body + "```";
    assert EndsWith(unfenced, "```");
    assert unfenced[..|unfenced| - 3] == body;
  }

  /** The usual reply: a fenced block with whitespace around it yields the
      stripped body. */
  lemma StripFencesOfSpacedBlock(w1: string, body: string, w2: string)
    requires forall k | 0 <= k < |w1| :: IsPyWhitespace(w1[k])
    requires forall k | 0 <= k < |w2| :: IsPyWhitespace(w2[k])
    ensures StripFences(w1 + "```json" + body + "```" + w2) == PyStrip(body)
  {
    var x := "```json" + body + "```";
    var t := w1 + "```json" + body + "```" + w2;
    assert t == w1 + x + w2;
    assert x[0] == '`' && x[|x| - 1] == '`';
    StripAround(w1, x, w2, IsPyWhitespace);
    StripClean(x, IsPyWhitespace);
    StripFencesOfFencedBlock(body);
  }

  /** A reply whose opening fence is never closed loses only that fence and
      the whitespace after it. */
  lemma StripFencesOfUnclosedBlock(t: string)
    requires StartsWith(PyStrip(t), "```json")
    requires !EndsWith(PyStrip(t)[7..], "```")
    ensures StripFences(t) == PyStrip(PyStrip(t)[7..])
  {
  }

  // ---------------------------------------------------------------------------
  // Navigation
  // ---------------------------------------------------------------------------

  /** `json.loads` applied to a parsed value: only a string can be parsed. */
  function LoadsValue(h: Host, v: Value): Result<Value, PyExc> {
    if v.Str? then LoadsText(h, v.s) else Failure(TypeError)
  }

  function LoadsText(h: Host, text: string): Result<Value, PyExc> {
    match h.loads(text)
    case Success(x) => Success(x)
    case Failure(m) => Failure(DecodeError(m))
  }

  const EnvelopeKey: string := "get_trivia_questions_response"

  /** `root["get_trivia_questions_response"]["result"]["content"][0]["text"]`,
      then `json.loads` of it. */
  function Navigate(h: Host, root: Value): Result<Value, PyExc> {
    var response :- Subscript(root, Name(EnvelopeKey));
    var result :- Subscript(response, Name("result"));
    var content :- Subscript(result, Name("content"));
    var first :- Subscript(content, Position(0));
    var text :- Subscript(first, Name("text"));
    LoadsValue(h, text)
  }

  /** The reply envelope that `Navigate` walks, built around a question text. */
  function Envelope(text: string): Value {
    Object(map[EnvelopeKey := Object(map["result" := Object(map[
      "content" := Array([Object(map["text" := Str(text), "type" := Str("text")])])])])])
  }

  /** Navigating an envelope reaches exactly the text it was built around. */
  lemma NavigateEnvelope(h: Host, text: string)
    ensures Navigate(h, Envelope(text)) == LoadsText(h, text)
  {
  }

  predicate IsCaught(e: PyExc) {
    e == KeyError || e == IndexError || e.DecodeError?
  }

  /** `handle_format_1` and `handle_format_2_navigation`: a missing key or
      index and a text that does not parse are caught and give an error
      record; other exceptions escape to the caller. */
  function HandleNavigation(h: Host, root: Value, failure: string): (r: Result<ParseResult, PyExc>)
    ensures r.Success? ==> Sound(r.value)
    ensures r.Success? && r.value.ParseError? ==> r.value == CreateErrorResponse(failure, h.repr(root))
    ensures r.Failure? <==> Navigate(h, root).Failure? && !IsCaught(Navigate(h, root).error)
    ensures Navigate(h, root).Failure? && IsCaught(Navigate(h, root).error)
            ==> r == Success(CreateErrorResponse(failure, h.repr(root)))
    ensures r.Success? && r.value.Parsed? ==> Navigate(h, root) == Success(Array(r.value.questions))
    ensures Navigate(h, root).Success?
            ==> r.Success? && (r.value.Parsed? <==> ValidateQuestionsFormat(Navigate(h, root).value))
  {
    match Navigate(h, root)
    case Success(questions) =>
      if ValidateQuestionsFormat(questions) then Success(Parsed(questions.items))
      else Success(CreateErrorResponse(failure, h.repr(root)))
    case Failure(e) =>
      if IsCaught(e) then Success(CreateErrorResponse(failure, h.repr(root)))
      else Failure(e)
  }

  /** A dict without the envelope key gives the error record, not an exception. */
  lemma MissingKeyGivesErrorRecord(h: Host, root: Value, failure: string)
    requires root.Object? && EnvelopeKey !in root.fields
    ensures HandleNavigation(h, root, failure) == Success(CreateErrorResponse(failure, h.repr(root)))
  {
  }

  /** An envelope whose text parses to a valid list yields exactly that list. */
  lemma EnvelopeWithValidQuestions(h: Host, text: string, questions: Value, failure: string)
    requires h.loads(text) == Success(questions)
    requires ValidQuestionList(questions)
    ensures HandleNavigation(h, Envelope(text), failure) == Success(Parsed(questions.items))
  {
    NavigateEnvelope(h, text);
  }

  /** The messages of the error records of `handle_format_1` and
      `handle_format_2_navigation`. */
  const Format1Failure: string := "Format 1 processing failed"
  const Format2Failure: string := "Format 2 navigation failed"

  /** The shared tail of both regex fallbacks: clean the matched text, parse
      it and accept it only if it validates. */
  function FromExtractedText(h: Host, matched: Option<string>, failure: string, raw: string): (r: ParseResult)
    ensures Sound(r)
    ensures r.ParseError? ==> r == CreateErrorResponse(failure, raw)
  {
    if matched.None? then CreateErrorResponse(failure, raw)
    else match LoadsText(h, CleanExtractedQuestionsText(matched.value))
      case Success(questions) =>
        if ValidateQuestionsFormat(questions) then Parsed(questions.items)
        else CreateErrorResponse(failure, raw)
      case Failure(_) => CreateErrorResponse(failure, raw)
  }

  /** `try_regex_extraction_format_3`. */
  function RegexExtractionFormat3(h: Host, text: string): (r: ParseResult)
    ensures Sound(r)
  {
    FromExtractedText(h, h.format3Regex(text), "Format 3 regex extraction failed", text)
  }

  /** `handle_format_3`: parse the string, else parse it after
      `clean_triple_escaped_json`, else fall back to the regex extraction. */
  function HandleFormat3(h: Host, formatted: string): (r: Result<ParseResult, PyExc>)
    ensures r.Success? ==> Sound(r.value)
  {
    match LoadsText(h, formatted)
    case Success(obj) => HandleNavigation(h, obj, Format1Failure)
    case Failure(_) =>
      match LoadsText(h, CleanTripleEscapedJson(formatted))
      case Success(obj) => HandleNavigation(h, obj, Format1Failure)
      case Failure(_) => Success(RegexExtractionFormat3(h, formatted))
  }

  /** A string that parses to the envelope, directly or once cleaned,
      yields the questions inside it. */
  lemma Format3StringParses(h: Host, formatted: string, inner: string, questions: Value)
    requires h.loads(inner) == Success(questions) && ValidQuestionList(questions)
    requires || h.loads(formatted) == Success(Envelope(inner))
             || (&& h.loads(formatted).Failure?
                 && h.loads(CleanTripleEscapedJson(formatted)) == Success(Envelope(inner)))
    ensures HandleFormat3(h, formatted) == Success(Parsed(questions.items))
  {
    EnvelopeWithValidQuestions(h, inner, questions, Format1Failure);
  }

  /** `handle_markdown_wrapped_formats`. */
  function HandleMarkdownWrapped(h: Host, text: string): (r: Result<ParseResult, PyExc>)
    ensures r.Success? ==> Sound(r.value)
  {
    var fixed := TextFields.FixControlCharacters(StripFences(text));
    match h.loads(fixed)
    case Failure(message) =>
      Success(CreateErrorResponse("Markdown JSON parse error: " + message, text))
    case Success(outer) =>
      match Contains(outer, "formatted_questions")
      case Failure(e) => Failure(e)
      case Success(true) =>
        var formatted :- Subscript(outer, Name("formatted_questions"));
        if IsDict(formatted) then HandleNavigation(h, formatted, Format1Failure)
        else if formatted.Str? then HandleFormat3(h, formatted.s)
        else Success(CreateErrorResponse("Unknown markdown format structure", text))
      case Success(false) =>
        // `outer` is a dict, list or str here, so this second `in` cannot raise
        if Contains(outer, EnvelopeKey) == Success(true) then HandleNavigation(h, outer, Format2Failure)
        else Success(CreateErrorResponse("Unknown markdown format structure", text))
  }

  /** The regex fallback of `try_alternative_format_2_fix`. */
  function RegexFallbackFormat2(h: Host, text: string): (r: ParseResult)
    ensures Sound(r)
  {
    FromExtractedText(h, h.questionsRegex(text), "All Format 2 fixes failed", text)
  }

  /** `try_alternative_format_2_fix`: the same repair once more, then the
      regex fallback. */
  function TryAlternativeFormat2Fix(h: Host, text: string): (r: Result<ParseResult, PyExc>)
    ensures r.Success? ==> Sound(r.value)
  {
    match LoadsText(h, TextFields.FixControlCharacters(text))
    case Success(outer) =>
      var hasEnvelope :- Contains(outer, EnvelopeKey);
      if hasEnvelope then HandleNavigation(h, outer, Format2Failure)
      else Success(RegexFallbackFormat2(h, text))
    case Failure(_) => Success(RegexFallbackFormat2(h, text))
  }

  /** `handle_direct_json_format`. */
  function HandleDirectJson(h: Host, text: string): (r: Result<ParseResult, PyExc>)
    ensures r.Success? ==> Sound(r.value)
  {
    match LoadsText(h, TextFields.FixControlCharacters(text))
    case Failure(_) => TryAlternativeFormat2Fix(h, text)
    case Success(outer) =>
      var hasEnvelope :- Contains(outer, EnvelopeKey);
      if hasEnvelope then HandleNavigation(h, outer, Format2Failure)
      else Success(CreateErrorResponse("Could not find " + EnvelopeKey, text))
  }

  /** The repair is deterministic, so when the direct parse fails the
      "alternative" retry fails the same way and only the regex fallback
      can still succeed. */
  lemma AlternativeFixRepeatsFailure(h: Host, text: string)
    requires h.loads(TextFields.FixControlCharacters(text)).Failure?
    ensures HandleDirectJson(h, text) == Success(RegexFallbackFormat2(h, text))
  {
  }

  predicate IsMarkdown(text: string) {
    StartsWith(PyStrip(text), "```json")
  }

  /** `extract_questions_from_mcp_response`: dispatches on the fence and turns
      any escaped exception into an error record, so it never raises. Every
      success carries a non-empty list that passed validation. */
  function ExtractQuestions(h: Host, text: string): (r: ParseResult)
    ensures Sound(r)
    ensures r.Parsed? ==> |r.questions| >= 1
    ensures r.Success() == (r.Questions() != [])
  {
    var outcome := if IsMarkdown(text) then HandleMarkdownWrapped(h, text) else HandleDirectJson(h, text);
    match outcome
    case Success(result) => result
    case Failure(e) => CreateErrorResponse("Parser error: " + h.describe(e), text)
  }

  /** Direct path: unfenced text whose repaired form parses to the envelope
      yields the questions inside it. */
  lemma DirectEnvelopeParses(h: Host, text: string, inner: string, questions: Value)
    requires !IsMarkdown(text)
    requires h.loads(TextFields.FixControlCharacters(text)) == Success(Envelope(inner))
    requires h.loads(inner) == Success(questions)
    requires ValidQuestionList(questions)
    ensures ExtractQuestions(h, text) == Parsed(questions.items)
  {
    EnvelopeWithValidQuestions(h, inner, questions, Format2Failure);
  }

  /** Markdown path, format 1: a fenced block whose `formatted_questions` is
      the envelope yields the questions inside it. */
  lemma FencedFormat1Parses(h: Host, body: string, inner: string, questions: Value)
    requires h.loads(TextFields.FixControlCharacters(PyStrip(body)))
             == Success(Object(map["formatted_questions" := Envelope(inner)]))
    requires h.loads(inner) == Success(questions)
    requires ValidQuestionList(questions)
    ensures ExtractQuestions(h, "```json" + body + "```") == Parsed(questions.items)
  {
    var text := "```json" + body + "```";
    StripClean(text, IsPyWhitespace);
    assert IsMarkdown(text);
    StripFencesOfFencedBlock(body);
    MarkdownFormat1(h, text, Envelope(inner));
    EnvelopeWithValidQuestions(h, inner, questions, Format1Failure);
  }

  lemma MarkdownFormat1(h: Host, text: string, formatted: Value)
    requires formatted.Object?
    requires h.loads(TextFields.FixControlCharacters(StripFences(text)))
             == Success(Object(map["formatted_questions" := formatted]))
    ensures HandleMarkdownWrapped(h, text) == HandleNavigation(h, formatted, Format1Failure)
  {
    var outer := Object(map["formatted_questions" := formatted]);
    assert Contains(outer, "formatted_questions") == Success(true);
    assert Subscript(outer, Name("formatted_questions")) == Success(formatted);
  }

  /** An exception no handler catches (here the TypeError of `in` applied to a
      number) still ends as an error record carrying the original text. */
  lemma EscapedExceptionBecomesErrorRecord(h: Host, text: string, n: int)
    requires !IsMarkdown(text)
    requires h.loads(TextFields.FixControlCharacters(text)) == Success(Int(n))
    ensures ExtractQuestions(h, text) == CreateErrorResponse("Parser error: " + h.describe(TypeError), text)
  {
  }
}

=== FILE: pipeline.dfy ===
/** How the pieces meet: the quiz screen reads its first question as soon as
    it is mounted, so it needs at least one question. Only the backend's
    validator ensures that; the client and the form pass on whatever list
    arrives, cut to the chosen count. */
module Pipeline {
  import opened Wrappers
  import opened Types
  import Json
  import JsonParser
  import Api
  import TriviaForm
  import AppFlow
  import QuizNavigation

  /** A reply from the service that carries the questions the parser
      accepted, one per accepted record (the serialisation of the records
      is not modelled). */
  predicate Carries(t: Api.Transport, parsed: JsonParser.ParseResult) {
    && t.Reply? && Api.IsOk(t.status) && t.body.Success?
    && t.body.value.success && t.body.value.questions.Some?
    && parsed.Parsed?
    && |t.body.value.questions.value| == |parsed.questions|
  }

  /** When the service forwards a result of the parser, starting the quiz
      loads at least one question and the quiz screen starts in a valid
      state. Every result of `JsonParser.ExtractQuestions` is `Sound`. */
  lemma ParsedQuestionsStartAValidQuiz(
    parsed: JsonParser.ParseResult, f: TriviaForm.Form, send: Json.Value -> Api.Transport, s: AppFlow.AppState)
    requires JsonParser.Sound(parsed)
    requires TriviaForm.Ready(f)
    requires Carries(send(Api.EncodeRequest(TriviaForm.ConfigOf(f))), parsed)
    requires s.screen == AppFlow.Setup
    ensures var loaded := TriviaForm.Start(f, send).1;
            && loaded.Some? && |loaded.value| >= 1
            && var app := AppFlow.Apply(s, AppFlow.QuestionsLoaded(loaded.value));
               && app.screen == AppFlow.Quiz
               && QuizNavigation.Valid(app.questions, QuizNavigation.Init(|app.questions|))
  {
    TriviaForm.StartOutcome(f, send);
    var loaded := TriviaForm.Start(f, send).1;
    QuizNavigation.InitValid(loaded.value);
  }

  /** The parser's own results meet the requirement above. */
  lemma ParserResultsAreSound(h: JsonParser.Host, text: string)
    ensures JsonParser.Sound(JsonParser.ExtractQuestions(h, text))
    ensures JsonParser.ExtractQuestions(h, text).Parsed? ==> |JsonParser.ExtractQuestions(h, text).questions| >= 1
  {
  }

  /** The frontend alone does not prevent an empty quiz: a successful reply
      with no questions reaches the quiz screen, where no state is valid. */
  lemma EmptySuccessReachesQuiz(
    f: TriviaForm.Form, send: Json.Value -> Api.Transport, s: AppFlow.AppState)
    requires TriviaForm.Ready(f)
    requires send(Api.EncodeRequest(TriviaForm.ConfigOf(f))).Reply?
    requires send(Api.EncodeRequest(TriviaForm.ConfigOf(f))).status == 200
    requires send(Api.EncodeRequest(TriviaForm.ConfigOf(f))).body == Success(Api.BackendBody(true, Some([]), None))
    requires s.screen == AppFlow.Setup
    ensures TriviaForm.Start(f, send).1 == Some([])
    ensures var app := AppFlow.Apply(s, AppFlow.QuestionsLoaded([]));
            && app.screen == AppFlow.Quiz
            && forall q: QuizNavigation.Quiz :: !QuizNavigation.Valid(app.questions, q)
  {
    TriviaForm.StartOutcome(f, send);
  }

  /** A finished quiz hands the application one answer per question, so the
      application's answers stay in step with its questions. */
  lemma CompletedQuizFits(qs: seq<Question>, q: QuizNavigation.Quiz, events: seq<QuizNavigation.Event>, s: AppFlow.AppState)
    requires QuizNavigation.Valid(qs, q) && s.questions == qs && s.screen == AppFlow.Quiz
    requires QuizNavigation.Run(qs, q, events).Completed?
    ensures AppFlow.Fits(s, AppFlow.QuizComplete(QuizNavigation.Run(qs, q, events).answers))
    ensures AppFlow.Consistent(AppFlow.Apply(s, AppFlow.QuizComplete(QuizNavigation.Run(qs, q, events).answers)))
  {
    QuizNavigation.RunKeepsInvariant(qs, q, events);
  }
}

=== FILE: quiz.dfy ===
/** The one-question-at-a-time quiz (frontend/src/components/IndividualQuestionDisplay.tsx).
    Its state is the current position and the answer array; the selected
    answer the component keeps alongside is always `answers[index]` once its
    effect has run, so it is derived here rather than stored. Each button
    press is one atomic transition; a disabled button is a no-op. */
module QuizNavigation {
  import opened Wrappers
  import opened Types

  datatype Quiz = Quiz(index: nat, answers: seq<Answer>)

  /** After a transition the quiz is either still running or has handed its
      answer array to `onComplete`. */
  datatype Step = InProgress(quiz: Quiz) | Completed(answers: seq<Answer>)

  /** What the quiz screen guarantees while it is shown: a current question
      exists, there is one answer slot per question, and every chosen answer
      is one of its question's option positions. */
  predicate Valid(qs: seq<Question>, q: Quiz) {
    && |qs| >= 1
    && q.index < |qs|
    && |q.answers| == |qs|
    && AnswersFit(qs, q.answers)
  }

  /** Every non-null answer indexes an option of its question. */
  predicate AnswersFit(qs: seq<Question>, answers: seq<Answer>)
    requires |answers| == |qs|
  {
    forall i | 0 <= i < |qs| :: answers[i].Some? ==> answers[i].value < |qs[i].options|
  }

  /** The initial state for `n` questions. */
  function Init(n: nat): (q: Quiz)
    ensures q.index == 0 && |q.answers| == n
    ensures forall i | 0 <= i < n :: q.answers[i] == None
  {
    Quiz(0, seq(n, _ => None))
  }

  /** `selectedAnswer`, as the effect leaves it. */
  function SelectedAnswer(q: Quiz): Answer
    requires q.index < |q.answers|
  {
    q.answers[q.index]
  }

  predicate CanGoNext(q: Quiz)
    requires q.index < |q.answers|
  {
    SelectedAnswer(q).Some?
  }

  predicate CanGoPrevious(q: Quiz) {
    q.index > 0
  }

  predicate IsLast(qs: seq<Question>, q: Quiz) {
    q.index == |qs| - 1
  }

  /** `handleAnswerSelect(k)`: records option `k` for the current question. */
  function Select(qs: seq<Question>, q: Quiz, k: nat): (r: Quiz)
    requires Valid(qs, q) && k < |qs[q.index].options|
    ensures Valid(qs, r)
    ensures r.index == q.index && SelectedAnswer(r) == Some(k)
    ensures forall i | 0 <= i < |qs| && i != q.index :: r.answers[i] == q.answers[i]
  {
    q.(answers := q.answers[q.index := Some(k)])
  }

  /** `handleNext` behind its `disabled={!canGoNext}` button. */
  function Next(qs: seq<Question>, q: Quiz): (r: Step)
    requires Valid(qs, q)
    ensures r.InProgress? ==> Valid(qs, r.quiz) && r.quiz.answers == q.answers
    ensures r.Completed? ==> r.answers == q.answers
    ensures r.InProgress? && r.quiz != q ==> r.quiz.index == q.index + 1
  {
    if !CanGoNext(q) then InProgress(q)
    else if IsLast(qs, q) then Completed(q.answers)
    else InProgress(q.(index := q.index + 1))
  }

  /** `handlePrevious`. */
  function Previous(qs: seq<Question>, q: Quiz): (r: Quiz)
    requires Valid(qs, q)
    ensures Valid(qs, r) && r.answers == q.answers
    ensures q.index == 0 ==> r == q
    ensures q.index > 0 ==> r.index == q.index - 1
  {
    if CanGoPrevious(q) then q.(index := q.index - 1) else q
  }

  /** `handleSkip`: moves on, or completes on the last question, without
      touching the answers. */
  function Skip(qs: seq<Question>, q: Quiz): (r: Step)
    requires Valid(qs, q)
    ensures r.InProgress? ==> Valid(qs, r.quiz) && r.quiz.answers == q.answers
    ensures r.Completed? ==> r.answers == q.answers
  {
    if IsLast(qs, q) then Completed(q.answers)
    else InProgress(q.(index := q.index + 1))
  }

  /** Next completes exactly on the last question with an answer chosen, and
      otherwise moves forward exactly when an answer is chosen. */
  lemma NextCompletesIff(qs: seq<Question>, q: Quiz)
    requires Valid(qs, q)
    ensures Next(qs, q).Completed? <==> CanGoNext(q) && IsLast(qs, q)
    ensures Next(qs, q) == InProgress(q) <==> !CanGoNext(q)
  {
  }

  /** Skip completes exactly on the last question, and never stands still. */
  lemma SkipCompletesIff(qs: seq<Question>, q: Quiz)
    requires Valid(qs, q)
    ensures Skip(qs, q).Completed? <==> IsLast(qs, q)
    ensures Skip(qs, q).InProgress? ==> Skip(qs, q).quiz.index == q.index + 1
  {
  }

  /** Skipping keeps an answer chosen earlier for the same question. */
  lemma SkipKeepsEarlierSelection(qs: seq<Question>, q: Quiz, k: nat)
    requires Valid(qs, q) && k < |qs[q.index].options|
    ensures var r := Skip(qs, Select(qs, q, k));
            (r.Completed? ==> r.answers[q.index] == Some(k))
            && (r.InProgress? ==> r.quiz.answers[q.index] == Some(k))
  {
  }

  /** Selecting again overwrites the earlier choice. */
  lemma ReselectOverwrites(qs: seq<Question>, q: Quiz, j: nat, k: nat)
    requires Valid(qs, q) && j < |qs[q.index].options| && k < |qs[q.index].options|
    ensures Select(qs, Select(qs, q, j), k) == Select(qs, q, k)
  {
  }

  /** Previous undoes a step forward, and a step forward (by Skip) undoes
      Previous. */
  lemma PreviousUndoesForward(qs: seq<Question>, q: Quiz)
    requires Valid(qs, q) && !IsLast(qs, q)
    ensures Skip(qs, q).InProgress? && Previous(qs, Skip(qs, q).quiz) == q
    ensures CanGoNext(q) ==> Next(qs, q).InProgress? && Previous(qs, Next(qs, q).quiz) == q
  {
  }

  lemma ForwardUndoesPrevious(qs: seq<Question>, q: Quiz)
    requires Valid(qs, q) && CanGoPrevious(q)
    ensures Skip(qs, Previous(qs, q)) == InProgress(q)
  {
  }

  /** The buttons of the quiz screen. An option button exists only for the
      current question's options. */
  datatype Event = ChooseOption(k: nat) | PressNext | PressPrevious | PressSkip

  function Apply(qs: seq<Question>, q: Quiz, e: Event): (r: Step)
    requires Valid(qs, q)
    ensures r.InProgress? ==> Valid(qs, r.quiz)
    ensures r.Completed? ==> |r.answers| == |qs| && AnswersFit(qs, r.answers)
  {
    match e
    case ChooseOption(k) =>
      if k < |qs[q.index].options| then InProgress(Select(qs, q, k)) else InProgress(q)
    case PressNext => Next(qs, q)
    case PressPrevious => InProgress(Previous(qs, q))
    case PressSkip => Skip(qs, q)
  }

  /** A sequence of presses; the screen goes away once the quiz completes,
      so later presses have no effect. */
  function Run(qs: seq<Question>, q: Quiz, events: seq<Event>): Step
    requires Valid(qs, q)
    decreases |events|
  {
    if events == [] then InProgress(q)
    else match Apply(qs, q, events[0])
      case Completed(answers) => Completed(answers)
      case InProgress(q') => Run(qs, q', events[1..])
  }

  /** Starting from the initial state, every reachable state keeps the quiz
      invariant, and a completed quiz hands over one answer per question,
      each either null or a valid option position. */
  lemma {:induction false} RunKeepsInvariant(qs: seq<Question>, q: Quiz, events: seq<Event>)
    requires Valid(qs, q)
    ensures var r := Run(qs, q, events);
            && (r.InProgress? ==> Valid(qs, r.quiz))
            && (r.Completed? ==> |r.answers| == |qs| && AnswersFit(qs, r.answers))
    decreases |events|
  {
    if events != [] {
      match Apply(qs, q, events[0])
      case Completed(_) =>
      case InProgress(q') => RunKeepsInvariant(qs, q', events[1..]);
    }
  }

  /** The quiz can start exactly when there is at least one question; it
      starts on the first question with nothing chosen, so Next and Previous
      are disabled. */
  lemma InitValid(qs: seq<Question>)
    ensures Valid(qs, Init(|qs|)) <==> |qs| >= 1
    ensures |qs| >= 1 ==> !CanGoNext(Init(|qs|)) && !CanGoPrevious(Init(|qs|))
  {
  }
}

=== FILE: report.dfy ===
/** The score summary shown after a quiz (frontend/src/components/FinalReport.tsx):
    the score, the rounded percentage, the answered/skipped/incorrect counts
    and the message and colour chosen from the percentage. */
module FinalReport {
  import opened Wrappers
  import opened Types

  /** `userAnswers[index]`; a position past the end reads as `undefined`,
      which, like `null`, never equals a correct answer. */
  function AnswerAt(answers: seq<Answer>, i: nat): Answer {
    if i < |answers| then answers[i] else None
  }

  /** Question `i` was answered correctly. */
  predicate Correct(qs: seq<Question>, answers: seq<Answer>, i: nat)
    requires i < |qs|
  {
    Matches(AnswerAt(answers, i), qs[i].correctAnswer)
  }

  /** The `reduce` of `calculateScore` over the first `n` questions. */
  function ScoreUpTo(qs: seq<Question>, answers: seq<Answer>, n: nat): (s: nat)
    requires n <= |qs|
    ensures s <= n
  {
    if n == 0 then 0
    else ScoreUpTo(qs, answers, n - 1) + (if Correct(qs, answers, n - 1) then 1 else 0)
  }

  /** `calculateScore()`. */
  function Score(qs: seq<Question>, answers: seq<Answer>): nat {
    ScoreUpTo(qs, answers, |qs|)
  }

  /** The positions answered correctly: an independent statement of the score. */
  function CorrectSet(qs: seq<Question>, answers: seq<Answer>, n: nat): set<nat>
    requires n <= |qs|
  {
    set i: nat | i < n && Correct(qs, answers, i)
  }

  /** The number of non-null entries among the first `n` answers. */
  function AnsweredUpTo(answers: seq<Answer>, n: nat): (c: nat)
    requires n <= |answers|
    ensures c <= n
  {
    if n == 0 then 0
    else AnsweredUpTo(answers, n - 1) + (if answers[n - 1].Some? then 1 else 0)
  }

  /** `userAnswers.filter(answer => answer !== null).length`. */
  function Answered(answers: seq<Answer>): nat {
    AnsweredUpTo(answers, |answers|)
  }

  /** The positions with a non-null answer: an independent statement of the
      answered count. */
  function AnsweredSet(answers: seq<Answer>, n: nat): set<nat>
    requires n <= |answers|
  {
    set i: nat | i < n && answers[i].Some?
  }

  /** The running answered count is the number of non-null entries. */
  lemma {:induction false} AnsweredUpToIsCount(answers: seq<Answer>, n: nat)
    requires n <= |answers|
    ensures AnsweredUpTo(answers, n) == |AnsweredSet(answers, n)|
  {
    if n > 0 {
      AnsweredUpToIsCount(answers, n - 1);
      var prev := AnsweredSet(answers, n - 1);
      if answers[n - 1].Some? {
        assert AnsweredSet(answers, n) == prev + {n - 1};
      } else {
        assert AnsweredSet(answers, n) == prev;
      }
    }
  }

  /** `Math.round((score / total) * 100)`, computed exactly with halves
      rounded up. With no questions the division is NaN, written `None`. */
  function Percentage(score: nat, total: nat): (p: Option<int>)
    ensures p.None? <==> total == 0
    ensures p.Some? ==> 2 * total * p.value - total <= 200 * score < 2 * total * p.value + total
    ensures p.Some? && score <= total ==> 0 <= p.value <= 100
    ensures p.Some? && score == 0 ==> p.value == 0
    ensures p.Some? && score == total ==> p.value == 100
  {
    if total == 0 then None
    else
      var p := (200 * score + total) / (2 * total);
      RoundingBounds(score, total);
      Some(p)
  }

  /** Multiplying by a positive number keeps the order. */
  lemma MultiplyMonotone(d: int, x: int, y: int)
    requires d > 0 && x <= y
    ensures d * x <= d * y
  {
    assert d * y - d * x == d * (y - x);
  }

  /** Euclidean division by a positive divisor is pinned down by its bounds. */
  lemma DivisionUnique(a: int, d: int, q: int)
    requires d > 0 && d * q <= a < d * q + d
    ensures a / d == q
  {
    var r := a / d;
    assert d * r <= a < d * r + d;
    if r < q {
      MultiplyMonotone(d, r + 1, q);
    } else if r > q {
      MultiplyMonotone(d, q + 1, r);
    }
  }

  lemma RoundingBounds(score: nat, total: nat)
    requires total > 0
    ensures var p := (200 * score + total) / (2 * total);
            && 2 * total * p - total <= 200 * score < 2 * total * p + total
            && (score <= total ==> 0 <= p <= 100)
            && (score == 0 ==> p == 0)
            && (score == total ==> p == 100)
  {
    var a := 200 * score + total;
    var d := 2 * total;
    var p := a / d;
    assert d * p <= a < d * p + d;
    if score <= total {
      if p < 0 {
        MultiplyMonotone(d, p, -1);
      }
      if p > 100 {
        MultiplyMonotone(d, 101, p);
      }
    }
    if score == 0 {
      DivisionUnique(a, d, 0);
    }
    if score == total {
      DivisionUnique(a, d, 100);
    }
  }

  /** The four numbers the report prints plus the percentage. */
  datatype Summary = Summary(
    score: nat,
    total: nat,
    percentage: Option<int>,
    answered: nat,
    skipped: int,
    incorrect: int)

  /** The report: the number of questions answered correctly, the number of
      non-null answers, and what follows from them. */
  function Summarize(qs: seq<Question>, answers: seq<Answer>): (r: Summary)
    ensures r.score == |CorrectSet(qs, answers, |qs|)|
    ensures r.answered == |AnsweredSet(answers, |answers|)|
    ensures r.total == |qs| && r.percentage == Percentage(r.score, r.total)
    ensures r.skipped == r.total - r.answered && r.incorrect == r.answered - r.score
  {
    var score := Score(qs, answers);
    var answered := Answered(answers);
    ScoreIsCount(qs, answers);
    AnsweredUpToIsCount(answers, |answers|);
    Summary(score, |qs|, Percentage(score, |qs|), answered, |qs| - answered, answered - score)
  }

  lemma {:induction false} ScoreUpToIsCount(qs: seq<Question>, answers: seq<Answer>, n: nat)
    requires n <= |qs|
    ensures ScoreUpTo(qs, answers, n) == |CorrectSet(qs, answers, n)|
  {
    if n > 0 {
      ScoreUpToIsCount(qs, answers, n - 1);
      var prev := CorrectSet(qs, answers, n - 1);
      if Correct(qs, answers, n - 1) {
        assert CorrectSet(qs, answers, n) == prev + {n - 1};
      } else {
        assert CorrectSet(qs, answers, n) == prev;
      }
    }
  }

  /** The score is the number of questions whose answer equals the correct one. */
  lemma ScoreIsCount(qs: seq<Question>, answers: seq<Answer>)
    ensures Score(qs, answers) == |CorrectSet(qs, answers, |qs|)|
    ensures Score(qs, answers) <= |qs|
  {
    ScoreUpToIsCount(qs, answers, |qs|);
  }

  lemma {:induction false} ScoreUpToAtMostAnswered(qs: seq<Question>, answers: seq<Answer>, n: nat)
    requires |answers| == |qs| && n <= |qs|
    ensures ScoreUpTo(qs, answers, n) <= AnsweredUpTo(answers, n)
  {
    if n > 0 {
      ScoreUpToAtMostAnswered(qs, answers, n - 1);
    }
  }

  /** With one answer per question: a correct answer is a non-null one, so
      0 <= score <= answered <= total, nothing is negative, and correct,
      incorrect and skipped add up to the total. */
  lemma SummaryConsistent(qs: seq<Question>, answers: seq<Answer>)
    requires |answers| == |qs|
    ensures var r := Summarize(qs, answers);
            && r.score <= r.answered <= r.total
            && 0 <= r.incorrect && 0 <= r.skipped <= r.total
            && r.score + r.incorrect + r.skipped == r.total
  {
    ScoreUpToAtMostAnswered(qs, answers, |qs|);
  }

  lemma {:induction false} ScoreUpToFullIff(qs: seq<Question>, answers: seq<Answer>, n: nat)
    requires n <= |qs|
    ensures ScoreUpTo(qs, answers, n) == n <==> forall i | 0 <= i < n :: Correct(qs, answers, i)
  {
    if n > 0 {
      ScoreUpToFullIff(qs, answers, n - 1);
    }
  }

  lemma {:induction false} ScoreUpToZeroIff(qs: seq<Question>, answers: seq<Answer>, n: nat)
    requires n <= |qs|
    ensures ScoreUpTo(qs, answers, n) == 0 <==> forall i | 0 <= i < n :: !Correct(qs, answers, i)
  {
    if n > 0 {
      ScoreUpToZeroIff(qs, answers, n - 1);
    }
  }

  /** A perfect score means every answer is right, and a zero score means
      none is; the percentage follows. */
  lemma ScoreExtremes(qs: seq<Question>, answers: seq<Answer>)
    requires |qs| > 0
    ensures Score(qs, answers) == |qs| <==> forall i | 0 <= i < |qs| :: Correct(qs, answers, i)
    ensures Score(qs, answers) == 0 <==> forall i | 0 <= i < |qs| :: !Correct(qs, answers, i)
    ensures (forall i | 0 <= i < |qs| :: Correct(qs, answers, i)) ==> Summarize(qs, answers).percentage == Some(100)
    ensures (forall i | 0 <= i < |qs| :: !Correct(qs, answers, i)) ==> Summarize(qs, answers).percentage == Some(0)
  {
    ScoreUpToFullIff(qs, answers, |qs|);
    ScoreUpToZeroIff(qs, answers, |qs|);
  }

  /** The closing line, one per band of the percentage. */
  datatype Message = Outstanding | Excellent | GoodJob | NotBad | GoodEffort

  function MessageText(m: Message): string {
    match m
    case Outstanding => "Outstanding! You're a trivia master!"
    case Excellent => "Excellent work! Great knowledge!"
    case GoodJob => "Good job! Well done!"
    case NotBad => "Not bad! Keep practicing!"
    case GoodEffort => "Good effort! Try again for a better score!"
  }

  /** A NaN percentage meets no threshold. */
  predicate AtLeast(p: Option<int>, bound: int) {
    p.Some? && p.value >= bound
  }

  /** `getScoreMessage`: the first threshold met wins. */
  function ScoreMessage(p: Option<int>): (m: Message)
    ensures m == Outstanding <==> AtLeast(p, 90)
    ensures m == Excellent <==> AtLeast(p, 80) && !AtLeast(p, 90)
    ensures m == GoodJob <==> AtLeast(p, 70) && !AtLeast(p, 80)
    ensures m == NotBad <==> AtLeast(p, 60) && !AtLeast(p, 70)
    ensures m == GoodEffort <==> !AtLeast(p, 60)
  {
    if AtLeast(p, 90) then Outstanding
    else if AtLeast(p, 80) then Excellent
    else if AtLeast(p, 70) then GoodJob
    else if AtLeast(p, 60) then NotBad
    else GoodEffort
  }

  /** How good a message is, from 0 (lowest band) to 4. */
  function Rank(m: Message): nat {
    match m
    case GoodEffort => 0
    case NotBad => 1
    case GoodJob => 2
    case Excellent => 3
    case Outstanding => 4
  }

  /** A higher percentage never gets a lower message. */
  lemma MessageMonotone(p: int, p': int)
    requires p <= p'
    ensures Rank(ScoreMessage(Some(p))) <= Rank(ScoreMessage(Some(p')))
  {
  }

  datatype Color = Green | Yellow | Red

  /** `getScoreColor`. */
  function ScoreColor(p: Option<int>): (c: Color)
    ensures c == Green <==> AtLeast(p, 80)
    ensures c == Yellow <==> AtLeast(p, 60) && !AtLeast(p, 80)
    ensures c == Red <==> !AtLeast(p, 60)
  {
    if AtLeast(p, 80) then Green
    else if AtLeast(p, 60) then Yellow
    else Red
  }

  /** The colour bands coarsen the message bands: green for the top two
      messages, red exactly for the lowest, yellow in between. */
  lemma ColorAgreesWithMessage(p: Option<int>)
    ensures ScoreColor(p) == Green <==> Rank(ScoreMessage(p)) >= 3
    ensures ScoreColor(p) == Yellow <==> 1 <= Rank(ScoreMessage(p)) <= 2
    ensures ScoreColor(p) == Red <==> ScoreMessage(p) == GoodEffort
  {
  }
}

=== FILE: review.dfy ===
/** The all-questions review screen (frontend/src/components/QuestionsDisplay.tsx).
    Each question has a cell holding the chosen option and whether its result
    is shown; the screen keeps its own scorer. */
module Review {
  import opened Wrappers
  import opened Types
  import FinalReport

  /** `QuestionState`. */
  datatype Cell = Cell(selected: Answer, shown: bool)

  /** The initial cells: with answers supplied (the review of a finished
      quiz) every cell carries its answer and is revealed; otherwise every
      cell is empty and hidden. An empty supplied array still counts as
      supplied. */
  function InitCells(qs: seq<Question>, provided: Option<seq<Answer>>): (r: seq<Cell>)
    requires provided.Some? ==> |provided.value| == |qs|
    ensures |r| == |qs|
    ensures provided.Some? ==> forall i | 0 <= i < |qs| :: r[i] == Cell(provided.value[i], true)
    ensures provided.None? ==> forall i | 0 <= i < |qs| :: r[i] == Cell(None, false)
  {
    match provided
    case Some(answers) => seq(|qs|, i requires 0 <= i < |qs| => Cell(answers[i], true))
    case None => seq(|qs|, _ => Cell(None, false))
  }

  /** `handleAnswerSelect(qi, k)`: ignored once the cell is revealed. */
  function SelectAnswer(cells: seq<Cell>, qi: nat, k: nat): (r: seq<Cell>)
    requires qi < |cells|
    ensures |r| == |cells|
    ensures cells[qi].shown ==> r == cells
    ensures !cells[qi].shown ==> r[qi] == Cell(Some(k), false)
    ensures forall i | 0 <= i < |cells| && i != qi :: r[i] == cells[i]
  {
    if cells[qi].shown then cells
    else cells[qi := Cell(Some(k), false)]
  }

  /** `handleRevealAnswer(qi)`. */
  function Reveal(cells: seq<Cell>, qi: nat): (r: seq<Cell>)
    requires qi < |cells|
    ensures |r| == |cells|
    ensures r[qi].shown && r[qi].selected == cells[qi].selected
    ensures forall i | 0 <= i < |cells| && i != qi :: r[i] == cells[i]
  {
    cells[qi := cells[qi].(shown := true)]
  }

  /** `handleSkipQuestion(qi)`: clears the selection and reveals. */
  function SkipQuestion(cells: seq<Cell>, qi: nat): (r: seq<Cell>)
    requires qi < |cells|
    ensures |r| == |cells|
    ensures r[qi] == Cell(None, true)
    ensures forall i | 0 <= i < |cells| && i != qi :: r[i] == cells[i]
  {
    cells[qi := Cell(None, true)]
  }

  /** `handleShowAllResults`. */
  function RevealAll(cells: seq<Cell>): (r: seq<Cell>)
    ensures |r| == |cells|
    ensures forall i | 0 <= i < |cells| :: r[i].shown && r[i].selected == cells[i].selected
  {
    seq(|cells|, i requires 0 <= i < |cells| => cells[i].(shown := true))
  }

  predicate AllAnswered(cells: seq<Cell>) {
    forall i | 0 <= i < |cells| :: cells[i].selected.Some?
  }

  predicate AllRevealed(cells: seq<Cell>) {
    forall i | 0 <= i < |cells| :: cells[i].shown
  }

  /** Revealing everything twice is the same as once, and leaves every
      result shown. */
  lemma RevealAllIdempotent(cells: seq<Cell>)
    ensures RevealAll(RevealAll(cells)) == RevealAll(cells)
    ensures AllRevealed(RevealAll(cells))
  {
  }

  /** This screen's `calculateScore` over the first `n` questions. */
  function ScoreUpTo(qs: seq<Question>, cells: seq<Cell>, n: nat): (s: nat)
    requires |cells| == |qs| && n <= |qs|
    ensures s <= n
  {
    if n == 0 then 0
    else ScoreUpTo(qs, cells, n - 1) + (if Matches(cells[n - 1].selected, qs[n - 1].correctAnswer) then 1 else 0)
  }

  function Score(qs: seq<Question>, cells: seq<Cell>): nat
    requires |cells| == |qs|
  {
    ScoreUpTo(qs, cells, |qs|)
  }

  /** The selections, as an answer array. */
  function Selections(cells: seq<Cell>): (r: seq<Answer>)
    ensures |r| == |cells| && forall i | 0 <= i < |cells| :: r[i] == cells[i].selected
  {
    seq(|cells|, i requires 0 <= i < |cells| => cells[i].selected)
  }

  lemma {:induction false} ScoreUpToAgrees(qs: seq<Question>, cells: seq<Cell>, n: nat)
    requires |cells| == |qs| && n <= |qs|
    ensures ScoreUpTo(qs, cells, n) == FinalReport.ScoreUpTo(qs, Selections(cells), n)
  {
    if n > 0 {
      ScoreUpToAgrees(qs, cells, n - 1);
    }
  }

  /** The review scorer counts what the report's scorer counts, so reviewing
      a finished quiz shows the report's score. */
  lemma ScoreAgreesWithReport(qs: seq<Question>, cells: seq<Cell>)
    requires |cells| == |qs|
    ensures Score(qs, cells) == FinalReport.Score(qs, Selections(cells))
    ensures Score(qs, cells) <= |qs|
  {
    ScoreUpToAgrees(qs, cells, |qs|);
  }

  lemma ReviewOfAnswersScoresAsReport(qs: seq<Question>, answers: seq<Answer>)
    requires |answers| == |qs|
    ensures Score(qs, InitCells(qs, Some(answers))) == FinalReport.Score(qs, answers)
  {
    var cells := InitCells(qs, Some(answers));
    ScoreAgreesWithReport(qs, cells);
    assert Selections(cells) == answers;
  }

  /** The score line: shown, with its percentage, only when every cell has a
      selection. */
  function ScoreLine(qs: seq<Question>, cells: seq<Cell>): (r: Option<(nat, Option<int>)>)
    requires |cells| == |qs|
    ensures r.Some? <==> AllAnswered(cells)
    ensures r.Some? ==> r.value.0 <= |qs| && r.value.1 == FinalReport.Percentage(r.value.0, |qs|)
  {
    if AllAnswered(cells) then
      var s := Score(qs, cells);
      Some((s, FinalReport.Percentage(s, |qs|)))
    else None
  }

  datatype Status = Skipped | Correct | Incorrect

  /** The status icon of a revealed question. */
  function StatusOf(q: Question, c: Cell): (r: Status)
    ensures r == Skipped <==> c.selected.None?
    ensures r == Correct <==> Matches(c.selected, q.correctAnswer)
    ensures r == Incorrect <==> c.selected.Some? && c.selected.value != q.correctAnswer
  {
    if c.selected.None? then Skipped
    else if c.selected.value == q.correctAnswer then Correct
    else Incorrect
  }

  /** The actions of the screen. */
  datatype Op = ChooseOption(qi: nat, k: nat) | RevealOne(qi: nat) | SkipOne(qi: nat) | RevealEverything

  /** Which actions the screen offers: an option button per option; Reveal
      and Skip only on a hidden cell that has a selection. */
  predicate Enabled(qs: seq<Question>, cells: seq<Cell>, op: Op)
    requires |cells| == |qs|
  {
    match op
    case ChooseOption(qi, k) => qi < |qs| && k < |qs[qi].options|
    case RevealOne(qi) => qi < |cells| && !cells[qi].shown && cells[qi].selected.Some?
    case SkipOne(qi) => qi < |cells| && !cells[qi].shown && cells[qi].selected.Some?
    case RevealEverything => true
  }

  function ApplyOp(qs: seq<Question>, cells: seq<Cell>, op: Op): (r: seq<Cell>)
    requires |cells| == |qs| && Enabled(qs, cells, op)
    ensures |r| == |qs|
  {
    match op
    case ChooseOption(qi, k) => SelectAnswer(cells, qi, k)
    case RevealOne(qi) => Reveal(cells, qi)
    case SkipOne(qi) => SkipQuestion(cells, qi)
    case RevealEverything => RevealAll(cells)
  }

  /** No offered action hides a revealed cell or changes its selection. */
  lemma RevealedCellsAreFinal(qs: seq<Question>, cells: seq<Cell>, op: Op)
    requires |cells| == |qs| && Enabled(qs, cells, op)
    ensures forall i | 0 <= i < |cells| && cells[i].shown :: ApplyOp(qs, cells, op)[i] == cells[i]
  {
  }

  /** Any sequence of offered actions; an action not offered is ignored. */
  function Perform(qs: seq<Question>, cells: seq<Cell>, ops: seq<Op>): (r: seq<Cell>)
    requires |cells| == |qs|
    ensures |r| == |qs|
    decreases |ops|
  {
    if ops == [] then cells
    else
      var next := if Enabled(qs, cells, ops[0]) then ApplyOp(qs, cells, ops[0]) else cells;
      Perform(qs, next, ops[1..])
  }

  /** Once revealed, a cell stays revealed with the same selection, whatever
      the user does afterwards. */
  lemma {:induction false} RevealIsMonotone(qs: seq<Question>, cells: seq<Cell>, ops: seq<Op>, i: nat)
    requires |cells| == |qs| && i < |cells| && cells[i].shown
    ensures Perform(qs, cells, ops)[i] == cells[i]
    decreases |ops|
  {
    if ops != [] {
      var next := if Enabled(qs, cells, ops[0]) then ApplyOp(qs, cells, ops[0]) else cells;
      if Enabled(qs, cells, ops[0]) {
        RevealedCellsAreFinal(qs, cells, ops[0]);
      }
      RevealIsMonotone(qs, next, ops[1..], i);
    }
  }

  /** In a review every cell starts revealed, so nothing the user does
      changes the answers or the score. */
  lemma ReviewIsReadOnly(qs: seq<Question>, answers: seq<Answer>, ops: seq<Op>)
    requires |answers| == |qs|
    ensures Perform(qs, InitCells(qs, Some(answers)), ops) == InitCells(qs, Some(answers))
  {
    var cells := InitCells(qs, Some(answers));
    var r := Perform(qs, cells, ops);
    forall i | 0 <= i < |qs| ensures r[i] == cells[i] {
      RevealIsMonotone(qs, cells, ops, i);
    }
  }
}

=== FILE: text.dfy ===
/** String helpers shared by the backend parser (Python `str` methods) and the
    frontend (JavaScript `String` methods and number formatting). Strings are
    sequences of Dafny `char`, which are Unicode scalar values: a Python `str`
    may also hold lone surrogate code points, which these strings cannot. */
module Text {

  predicate StartsWith(s: string, prefix: string) {
    |prefix| <= |s| && s[..|prefix|] == prefix
  }

  predicate EndsWith(s: string, suffix: string) {
    |suffix| <= |s| && s[|s| - |suffix|..] == suffix
  }

  /** `pattern` occurs in `s` starting at position `i`. */
  predicate OccursAt(s: string, pattern: string, i: nat) {
    i + |pattern| <= |s| && s[i..i + |pattern|] == pattern
  }

  /** Python's `pattern in s` for two strings. */
  predicate Occurs(s: string, pattern: string) {
    exists i: nat | i <= |s| :: OccursAt(s, pattern, i)
  }

  /** A pattern whose first character is absent from `s` does not occur in it. */
  lemma HeadAbsentNotOccurs(s: string, pattern: string)
    requires |pattern| > 0 && pattern[0] !in s
    ensures !Occurs(s, pattern)
  {
    forall i: nat | i <= |s| ensures !OccursAt(s, pattern, i) {
      if i + |pattern| <= |s| { assert s[i..i + |pattern|][0] == s[i]; }
    }
  }

  /** One differing character is enough to rule an occurrence out. */
  lemma DiffersAt(s: string, key: string, i: nat, k: nat)
    requires i + |key| <= |s| && k < |key| && s[i + k] != key[k]
    ensures !OccursAt(s, key, i)
  {
    assert s[i..i + |key|][k] == s[i + k];
  }

  /** Occurrences in `s` are the occurrences in `w + s`, shifted by `|w|`. */
  lemma ShiftOccurs(w: string, s: string, key: string, o: nat)
    requires |w| <= o
    ensures OccursAt(w + s, key, o) == OccursAt(s, key, o - |w|)
  {
    if o + |key| <= |w + s| {
      assert (w + s)[o..o + |key|] == s[o - |w|..o - |w| + |key|];
    }
  }

  /** Occurrences that end inside `w` are the same in `w + t`. */
  lemma OccursWithin(w: string, t: string, key: string, o: nat)
    requires o + |key| <= |w|
    ensures OccursAt(w + t, key, o) == OccursAt(w, key, o)
  {
    assert (w + t)[o..o + |key|] == w[o..o + |key|];
  }

  // ---------------------------------------------------------------------------
  // str.replace
  // ---------------------------------------------------------------------------

  /** Python's `s.replace(pattern, replacement)`: scans left to right and
      replaces every non-overlapping occurrence of a non-empty pattern. */
  function ReplaceAll(s: string, pattern: string, replacement: string): (r: string)
    requires |pattern| > 0
    ensures |replacement| <= |pattern| ==> |r| <= |s|
    ensures |replacement| >= |pattern| ==> |r| >= |s|
    ensures forall c :: c in r ==> c in s || c in replacement
    decreases |s|
  {
    if |s| < |pattern| then s
    else if s[..|pattern|] == pattern then
      replacement + ReplaceAll(s[|pattern|..], pattern, replacement)
    else
      [s[0]] + ReplaceAll(s[1..], pattern, replacement)
  }

  /** Replacing a pattern that does not occur leaves the string as it was. */
  lemma {:induction false} ReplaceAllAbsent(s: string, pattern: string, replacement: string)
    requires |pattern| > 0
    requires !Occurs(s, pattern)
    ensures ReplaceAll(s, pattern, replacement) == s
    decreases |s|
  {
    if |s| < |pattern| {
    } else {
      assert !OccursAt(s, pattern, 0);
      assert !Occurs(s[1..], pattern) by {
        forall i: nat | i <= |s[1..]|
          ensures !OccursAt(s[1..], pattern, i)
        {
          assert !OccursAt(s, pattern, i + 1);
          if i + |pattern| <= |s[1..]| {
            assert s[1..][i..i + |pattern|] == s[i + 1..i + 1 + |pattern|];
          }
        }
      }
      ReplaceAllAbsent(s[1..], pattern, replacement);
    }
  }

  /** The text before the first occurrence is kept, the first occurrence is
      replaced, and replacement resumes right after it. */
  lemma {:induction false} ReplaceAllFirstOccurrence(x: string, pattern: string, y: string, replacement: string)
    requires |pattern| > 0
    requires forall i: nat | i < |x| :: !OccursAt(x + pattern + y, pattern, i)
    ensures ReplaceAll(x + pattern + y, pattern, replacement)
            == x + replacement + ReplaceAll(y, pattern, replacement)
    decreases |x|
  {
    var s := x + pattern + y;
    if |x| == 0 {
      assert s == pattern + y;
      assert s[..|pattern|] == pattern;
      assert s[|pattern|..] == y;
    } else {
      var t := x[1..] + pattern + y;
      assert s[..|pattern|] != pattern by {
        assert !OccursAt(s, pattern, 0);
      }
      assert s[1..] == t;
      assert ReplaceAll(s, pattern, replacement) == [x[0]] + ReplaceAll(t, pattern, replacement);
      forall i: nat | i < |x| - 1
        ensures !OccursAt(t, pattern, i)
      {
        assert !OccursAt(s, pattern, i + 1);
        if i + |pattern| <= |t| {
          assert t[i..i + |pattern|] == s[i + 1..i + 1 + |pattern|];
        }
      }
      ReplaceAllFirstOccurrence(x[1..], pattern, y, replacement);
      assert [x[0]] + x[1..] == x;
    }
  }

  /** With a replacement as long as the pattern, every character either stays
      or is the replacement's character at the same offset of an occurrence. */
  lemma {:induction false} ReplaceAllSameLength(s: string, pattern: string, replacement: string)
    requires |pattern| > 0 && |replacement| == |pattern|
    ensures var r := ReplaceAll(s, pattern, replacement);
            && |r| == |s|
            && forall k | 0 <= k < |s| ::
                 r[k] == s[k] || exists j | 0 <= j < |pattern| :: s[k] == pattern[j] && r[k] == replacement[j]
    decreases |s|
  {
    var r := ReplaceAll(s, pattern, replacement);
    if |s| < |pattern| {
    } else if s[..|pattern|] == pattern {
      var rest := s[|pattern|..];
      ReplaceAllSameLength(rest, pattern, replacement);
      forall k | 0 <= k < |s|
        ensures r[k] == s[k] || exists j | 0 <= j < |pattern| :: s[k] == pattern[j] && r[k] == replacement[j]
      {
        if k < |pattern| {
          assert s[k] == pattern[k] && r[k] == replacement[k];
        } else {
          assert s[k] == rest[k - |pattern|];
          assert r[k] == ReplaceAll(rest, pattern, replacement)[k - |pattern|];
        }
      }
    } else {
      var rest := s[1..];
      ReplaceAllSameLength(rest, pattern, replacement);
      forall k | 0 <= k < |s|
        ensures r[k] == s[k] || exists j | 0 <= j < |pattern| :: s[k] == pattern[j] && r[k] == replacement[j]
      {
        if k > 0 {
          assert s[k] == rest[k - 1];
          assert r[k] == ReplaceAll(rest, pattern, replacement)[k - 1];
        }
      }
    }
  }

  /** Replacing a one-character pattern by text that does not contain that
      character removes the character entirely. */
  lemma {:induction false} ReplaceAllRemovesChar(s: string, c: char, replacement: string)
    requires c !in replacement
    ensures c !in ReplaceAll(s, [c], replacement)
    decreases |s|
  {
    if |s| < 1 {
    } else if s[..1] == [c] {
      ReplaceAllRemovesChar(s[1..], c, replacement);
    } else {
      assert s[0] != c by { assert s[..1] == [s[0]]; }
      ReplaceAllRemovesChar(s[1..], c, replacement);
    }
  }

  /** `a` and `b` agree on every position both have: one is a prefix of the other. */
  predicate Agree(a: string, b: string) {
    forall i | 0 <= i < |a| && i < |b| :: a[i] == b[i]
  }

  lemma DisagreeAt(a: string, b: string, i: nat)
    requires i < |a| && i < |b| && a[i] != b[i]
    ensures !Agree(a, b)
  {
  }

  /** No occurrence of `key` can start inside `q`, whatever follows `q`. */
  predicate StartsNotInside(q: string, key: string) {
    forall m | 0 <= m < |q| :: !Agree(q[m..], key)
  }

  /** No occurrence of `key` that starts before `q` can run on into `q`. */
  predicate RunsNotInto(q: string, key: string) {
    forall d | 0 < d < |key| :: !Agree(q, key[d..])
  }

  /** Splicing `q` after key-free text `w` makes no occurrence start before
      the end of `q`. */
  lemma SpliceStartsNoKey(w: string, q: string, t: string, key: string)
    requires |key| > 0 && !Occurs(w, key) && RunsNotInto(q, key)
    ensures forall o: nat | o < |w| :: !OccursAt(w + q + t, key, o)
    ensures StartsNotInside(q, key) ==> forall o: nat | o < |w| + |q| :: !OccursAt(w + q + t, key, o)
  {
    var u := w + q + t;
    forall o: nat | o < |w| + |q| && (o < |w| || StartsNotInside(q, key))
      ensures !OccursAt(u, key, o)
    {
      if o + |key| <= |u| {
        if o < |w| {
          var d := |w| - o;
          if d >= |key| {
            assert u == w + (q + t);
            OccursWithin(w, q + t, key, o);
            assert !OccursAt(w, key, o);
          } else {
            assert !Agree(q, key[d..]);
            var i :| 0 <= i < |q| && i < |key[d..]| && q[i] != key[d..][i];
            assert u[o + d + i] == q[i];
            DiffersAt(u, key, o, d + i);
          }
        } else {
          var m := o - |w|;
          assert !Agree(q[m..], key);
          var i :| 0 <= i < |q[m..]| && i < |key| && q[m..][i] != key[i];
          assert u[o + i] == q[m + i];
          DiffersAt(u, key, o, i);
        }
      }
    }
  }

  /** A string that cannot take part in an occurrence of `key`, placed
      between two key-free strings, leaves the whole key-free. */
  lemma NotOccursAround(x: string, q: string, y: string, key: string)
    requires |key| > 0 && !Occurs(x, key) && !Occurs(y, key)
    requires StartsNotInside(q, key) && RunsNotInto(q, key)
    ensures !Occurs(x + q + y, key)
  {
    SpliceStartsNoKey(x, q, y, key);
    forall o: nat | |x| + |q| <= o
      ensures !OccursAt(x + q + y, key, o)
    {
      ShiftOccurs(x + q, y, key, o);
    }
  }

  /** A key-free string stays key-free when text is dropped from its front. */
  lemma DropKeepsNoKey(a: string, rest: string, key: string)
    requires !Occurs(a + rest, key)
    ensures !Occurs(rest, key)
  {
    forall o: nat | o <= |rest| ensures !OccursAt(rest, key, o) {
      ShiftOccurs(a, rest, key, o + |a|);
    }
  }

  /** No occurrence starting in `w` within `w + s` means none inside `w`. */
  lemma PrefixNoKey(w: string, s: string, key: string)
    requires |key| > 0
    requires forall o: nat | o < |w| :: !OccursAt(w + s, key, o)
    ensures !Occurs(w, key)
  {
    forall o: nat | o <= |w| ensures !OccursAt(w, key, o) {
      if o + |key| <= |w| { OccursWithin(w, s, key, o); }
    }
  }

  /** After `ReplaceAll(s, pattern, replacement)` no occurrence of `key` is
      left, when the replacement cannot take part in one and `key` is either
      the pattern itself or absent from `s`. The text `w` already produced
      before `s` has no occurrence starting in it. */
  lemma {:induction false} ReplaceAllLeavesNoKey(w: string, s: string, pattern: string, replacement: string, key: string)
    requires |pattern| > 0 && |key| > 0
    requires StartsNotInside(replacement, key) && RunsNotInto(replacement, key)
    requires forall o: nat | o < |w| :: !OccursAt(w + s, key, o)
    requires key == pattern || !Occurs(s, key)
    ensures !Occurs(w + ReplaceAll(s, pattern, replacement), key)
    decreases |s|
  {
    if |s| < |pattern| {
      forall o: nat | |w| <= o ensures !OccursAt(w + s, key, o) {
        ShiftOccurs(w, s, key, o);
      }
    } else if s[..|pattern|] == pattern {
      var rest := s[|pattern|..];
      assert s == pattern + rest;
      PrefixNoKey(w, s, key);
      SpliceStartsNoKey(w, replacement, rest, key);
      if key != pattern { DropKeepsNoKey(pattern, rest, key); }
      ReplaceAllLeavesNoKey(w + replacement, rest, pattern, replacement, key);
      assert w + ReplaceAll(s, pattern, replacement) == w + replacement + ReplaceAll(rest, pattern, replacement);
    } else {
      var rest := s[1..];
      var w' := w + [s[0]];
      assert w' + rest == w + s;
      assert !OccursAt(w + s, key, |w|) by {
        ShiftOccurs(w, s, key, |w|);
        if key == pattern {
          assert s[0..|pattern|] == s[..|pattern|];
        } else {
          assert !OccursAt(s, key, 0);
        }
      }
      if key != pattern {
        assert [s[0]] + rest == s;
        DropKeepsNoKey([s[0]], rest, key);
      }
      ReplaceAllLeavesNoKey(w', rest, pattern, replacement, key);
      assert w + ReplaceAll(s, pattern, replacement) == w' + ReplaceAll(rest, pattern, replacement);
    }
  }

  // ---------------------------------------------------------------------------
  // Whitespace and stripping
  // ---------------------------------------------------------------------------

  /** Python's `str.isspace()` for one character, which is also what `\s`
      matches in a `str` regular expression and what `str.strip()` removes. */
  predicate IsPyWhitespace(c: char) {
    || ('\t' <= c <= '\r')                 // tab, line feed, vertical tab, form feed, carriage return
    || ('\U{1C}' <= c <= ' ')               // file/group/record/unit separators and space
    || c == '\U{85}' || c == '\U{A0}' || c == '\U{1680}'
    || ('\U{2000}' <= c <= '\U{200A}')
    || c == '\U{2028}' || c == '\U{2029}' || c == '\U{202F}' || c == '\U{205F}' || c == '\U{3000}'
  }

  /** JavaScript's WhiteSpace and LineTerminator characters, which
      `String.prototype.trim` removes. */
  predicate IsJsWhitespace(c: char) {
    || ('\t' <= c <= '\r')
    || c == ' ' || c == '\U{A0}' || c == '\U{1680}'
    || ('\U{2000}' <= c <= '\U{200A}')
    || c == '\U{2028}' || c == '\U{2029}' || c == '\U{202F}' || c == '\U{205F}' || c == '\U{3000}'
    || c == '\U{FEFF}'
  }

  /** End of the run of `space` characters starting at `i`. */
  function RunEnd(s: string, space: char -> bool, i: nat): (k: nat)
    requires i <= |s|
    ensures i <= k <= |s|
    ensures forall j | i <= j < k :: space(s[j])
    ensures k < |s| ==> !space(s[k])
    decreases |s| - i
  {
    if i < |s| && space(s[i]) then RunEnd(s, space, i + 1) else i
  }

  /** Start of the run of `space` characters ending at `j`, scanning back no
      further than `lo`. */
  function RunStart(s: string, space: char -> bool, lo: nat, j: nat): (k: nat)
    requires lo <= j <= |s|
    ensures lo <= k <= j
    ensures forall m | k <= m < j :: space(s[m])
    ensures k > lo ==> !space(s[k - 1])
    decreases j
  {
    if j > lo && space(s[j - 1]) then RunStart(s, space, lo, j - 1) else j
  }

  /** How many characters `Strip` cuts from the front. */
  function LeadingCut(s: string, space: char -> bool): nat {
    RunEnd(s, space, 0)
  }

  /** Strips both ends: the result is a contiguous slice of `s`, everything cut
      away is whitespace, and the result neither starts nor ends with it. */
  function Strip(s: string, space: char -> bool): (r: string)
    ensures |r| > 0 ==> !space(r[0]) && !space(r[|r| - 1])
    ensures var i := LeadingCut(s, space);
            && i + |r| <= |s|
            && r == s[i..i + |r|]
            && (forall k | 0 <= k < i :: space(s[k]))
            && (forall k | i + |r| <= k < |s| :: space(s[k]))
  {
    var i := RunEnd(s, space, 0);
    s[i..RunStart(s, space, i, |s|)]
  }

  /** Text that neither starts nor ends with a space is left as it is. */
  lemma StripClean(s: string, space: char -> bool)
    requires |s| > 0 ==> !space(s[0]) && !space(s[|s| - 1])
    ensures Strip(s, space) == s
  {
    assert s[0..|s|] == s;
  }

  /** Stripping text that has non-space ends and only space around it gives
      exactly that text back. */
  lemma StripAround(w1: string, x: string, w2: string, space: char -> bool)
    requires forall k | 0 <= k < |w1| :: space(w1[k])
    requires forall k | 0 <= k < |w2| :: space(w2[k])
    requires |x| > 0 && !space(x[0]) && !space(x[|x| - 1])
    ensures Strip(w1 + x + w2, space) == x
  {
    var s := w1 + x + w2;
    var r := Strip(s, space);
    var i := LeadingCut(s, space);
    assert s[|w1|] == x[0] && s[|w1| + |x| - 1] == x[|x| - 1];
    assert forall k | 0 <= k < |w1| :: s[k] == w1[k];
    assert forall k | |w1| + |x| <= k < |s| :: s[k] == w2[k - |w1| - |x|];
    assert i == |w1|;
    assert i + |r| == |w1| + |x| by {
      assert i + |r| >= |w1| + |x|;
      if |r| > 0 { assert s[i + |r| - 1] == r[|r| - 1]; }
    }
    assert r == s[|w1|..|w1| + |x|];
  }

  /** Python's `str.strip()`. */
  function PyStrip(s: string): string {
    Strip(s, IsPyWhitespace)
  }

  /** JavaScript's `String.prototype.trim()`. */
  function JsTrim(s: string): string {
    Strip(s, IsJsWhitespace)
  }

  // ---------------------------------------------------------------------------
  // Decimal numerals
  // ---------------------------------------------------------------------------

  predicate IsDigit(c: char) {
    '0' <= c <= '9'
  }

  function DigitChar(d: nat): (c: char)
    requires d < 10
    ensures IsDigit(c)
  {
    "0123456789"[d]
  }

  function DigitValue(c: char): nat
    requires IsDigit(c)
  {
    (c as int - '0' as int) as nat
  }

  /** JavaScript's `n.toString()` for a non-negative integer. */
  function Decimal(n: nat): (r: string)
    ensures |r| > 0
    ensures forall k | 0 <= k < |r| :: IsDigit(r[k])
    ensures r[0] == '0' <==> n == 0
  {
    if n < 10 then [DigitChar(n)] else Decimal(n / 10) + [DigitChar(n % 10)]
  }

  /** Reads a non-empty string of decimal digits back as a number. */
  function ParseDecimal(s: string): nat
    requires |s| > 0
    requires forall k | 0 <= k < |s| :: IsDigit(s[k])
  {
    if |s| == 1 then DigitValue(s[0])
    else 10 * ParseDecimal(s[..|s| - 1]) + DigitValue(s[|s| - 1])
  }

  /** `s` is a decimal numeral for `n`. */
  predicate IsNumeral(s: string, n: nat) {
    && |s| > 0
    && (forall k | 0 <= k < |s| :: IsDigit(s[k]))
    && ParseDecimal(s) == n
  }

  lemma {:induction false} DecimalRoundTrip(n: nat)
    ensures ParseDecimal(Decimal(n)) == n
  {
    if n < 10 {
    } else {
      var s := Decimal(n);
      assert s[..|s| - 1] == Decimal(n / 10);
      DecimalRoundTrip(n / 10);
    }
  }

  /** Different numbers print differently. */
  lemma DecimalInjective(a: nat, b: nat)
    requires a != b
    ensures Decimal(a) != Decimal(b)
  {
    DecimalRoundTrip(a);
    DecimalRoundTrip(b);
  }
}

=== FILE: text_fields.dfy ===
/** The repair `fix_control_characters_in_json` applies to raw model output
    (backend/app/utils/json_parser.py:98-142): Python booleans after
    `"isError":` become JSON booleans, and inside every
    `"text": "<content>", "type": "text"` field the content is rewritten so
    that it holds no literal newline, tab or carriage return.

    The field pattern `("text":\s*")(.*?)(",\s*"type":\s*"text")` is matched
    here directly rather than through a regular-expression engine: each `\s*`
    is followed by a quote, which is not whitespace, so the greedy runs have a
    single outcome, and the lazy body ends at the first position where the
    closing part matches. `re.sub` takes the leftmost match, rewrites it and
    resumes after it. */
module TextFields {
  import opened Wrappers
  import opened Text

  const OpenKey: string := "\"text\":"
  const CloseKey: string := "\"type\":"
  const CloseValue: string := "\"text\""

  /** End of the `\s*` run starting at `i`. */
  function SpacesEnd(s: string, i: nat): nat
    requires i <= |s|
  {
    RunEnd(s, IsPyWhitespace, i)
  }

  /** `s[from..to]` is matched by `\s*`. */
  predicate Spaces(s: string, from: nat, to: nat) {
    from <= to <= |s| && forall j | from <= j < to :: IsPyWhitespace(s[j])
  }

  /** A `\s*` followed by a quote can only stop at the end of the run: a quote
      is not whitespace. */
  lemma SpacesEndAtQuote(s: string, from: nat, p: string)
    requires from <= |s| && |p| > 0 && p[0] == '"'
    ensures forall k: nat | Spaces(s, from, k) && k < |s| && s[k] == '"' :: k == SpacesEnd(s, from)
    ensures forall k: nat | Spaces(s, from, k) && OccursAt(s, p, k) :: k == SpacesEnd(s, from)
  {
    forall k: nat | Spaces(s, from, k) && OccursAt(s, p, k) ensures s[k] == '"' {
      assert s[k..k + |p|][0] == s[k];
    }
  }

  /** `"text":\s*"` matches at `i` and ends at `start`. */
  predicate OpenMatch(s: string, i: nat, start: nat) {
    && OccursAt(s, OpenKey, i)
    && i + |OpenKey| < start
    && Spaces(s, i + |OpenKey|, start - 1)
    && start - 1 < |s| && s[start - 1] == '"'
  }

  /** `",\s*"type":\s*"text"` matches at `e`, with `"type":` at `k` and
      `"text"` at `k2`. */
  predicate CloseMatch(s: string, e: nat, k: nat, k2: nat) {
    && OccursAt(s, "\",", e)
    && Spaces(s, e + 2, k)
    && OccursAt(s, CloseKey, k)
    && Spaces(s, k + |CloseKey|, k2)
    && OccursAt(s, CloseValue, k2)
  }

  /** Where the field content starts if `"text":\s*"` matches at `i`. */
  function OpenAt(s: string, i: nat): (r: Option<nat>)
    ensures forall start: nat :: OpenMatch(s, i, start) <==> r == Some(start)
  {
    if OccursAt(s, OpenKey, i) then
      var k := SpacesEnd(s, i + |OpenKey|);
      SpacesEndAtQuote(s, i + |OpenKey|, "\"");
      if k < |s| && s[k] == '"' then Some(k + 1) else None
    else None
  }

  /** Where the whole match ends if `",\s*"type":\s*"text"` matches at `e`. */
  function CloseAt(s: string, e: nat): (r: Option<nat>)
    ensures forall k: nat, k2: nat | CloseMatch(s, e, k, k2) :: r == Some(k2 + |CloseValue|)
    ensures r.Some? ==> exists k: nat, k2: nat :: CloseMatch(s, e, k, k2) && r.value == k2 + |CloseValue|
  {
    if OccursAt(s, "\",", e) then
      var k := SpacesEnd(s, e + 2);
      SpacesEndAtQuote(s, e + 2, CloseKey);
      if OccursAt(s, CloseKey, k) then
        var k2 := SpacesEnd(s, k + |CloseKey|);
        SpacesEndAtQuote(s, k + |CloseKey|, CloseValue);
        if OccursAt(s, CloseValue, k2) then
          assert CloseMatch(s, e, k, k2);
          Some(k2 + |CloseValue|)
        else None
      else None
    else None
  }

  /** A match: the content is `s[contentStart..contentEnd]`, the match ends at `end`. */
  datatype Match = Match(contentStart: nat, contentEnd: nat, end: nat)

  /** The lazy `(.*?)`: the first position from `e` on where the closing part matches. */
  function FirstClose(s: string, e: nat): (r: Option<(nat, nat)>)
    requires e <= |s|
    ensures r.Some? ==> e <= r.value.0 < r.value.1 <= |s| && CloseAt(s, r.value.0) == Some(r.value.1)
    ensures r.Some? ==> forall j | e <= j < r.value.0 :: CloseAt(s, j).None?
    ensures r.None? ==> forall j | e <= j <= |s| :: CloseAt(s, j).None?
    decreases |s| - e
  {
    var here := CloseAt(s, e);
    if here.Some? then Some((e, here.value))
    else if e == |s| then None
    else
      var r := FirstClose(s, e + 1);
      assert forall j | e <= j < e + 1 :: CloseAt(s, j) == here;
      r
  }

  /** The field pattern tried at position `i`. */
  function MatchAt(s: string, i: nat): (r: Option<Match>)
    ensures r.Some? ==> i < r.value.contentStart <= r.value.contentEnd < r.value.end <= |s|
    ensures r.Some? ==> && OpenMatch(s, i, r.value.contentStart)
                        && CloseAt(s, r.value.contentEnd) == Some(r.value.end)
                        && forall j | r.value.contentStart <= j < r.value.contentEnd :: CloseAt(s, j).None?
    ensures r.None? ==> forall start: nat, j: nat | OpenMatch(s, i, start) && start <= j <= |s| :: CloseAt(s, j).None?
  {
    match OpenAt(s, i)
    case None => None
    case Some(start) =>
      match FirstClose(s, start)
      case None => None
      case Some(close) => Some(Match(start, close.0, close.1))
  }

  /** The body of `fix_text_field`: un-escapes `\'` and escapes literal
      newlines, tabs and carriage returns. */
  function FixTextContent(content: string): (r: string)
    ensures '\n' !in r && '\t' !in r && '\r' !in r
  {
    var a := ReplaceAll(content, "\\'", "'");
    var b := ReplaceAll(a, "\n", "\\n");
    ReplaceAllRemovesChar(a, '\n', "\\n");
    var c := ReplaceAll(b, "\t", "\\t");
    ReplaceAllRemovesChar(b, '\t', "\\t");
    var d := ReplaceAll(c, "\r", "\\r");
    ReplaceAllRemovesChar(c, '\r', "\\r");
    d
  }

  /** Content that is already clean passes through `fix_text_field` unchanged. */
  lemma FixTextContentKeepsCleanText(content: string)
    requires !Occurs(content, "\\'")
    requires '\n' !in content && '\t' !in content && '\r' !in content
    ensures FixTextContent(content) == content
  {
    ReplaceAllAbsent(content, "\\'", "'");
    HeadAbsentNotOccurs(content, "\n");
    ReplaceAllAbsent(content, "\n", "\\n");
    HeadAbsentNotOccurs(content, "\t");
    ReplaceAllAbsent(content, "\t", "\\t");
    HeadAbsentNotOccurs(content, "\r");
    ReplaceAllAbsent(content, "\r", "\\r");
  }

  /** `re.sub(pattern, fix_text_field, s[i..])` with the scan starting at `i`. */
  function SubFrom(s: string, i: nat): string
    decreases |s| - i
  {
    if i >= |s| then []
    else match MatchAt(s, i)
      case Some(m) =>
        s[i..m.contentStart] + FixTextContent(s[m.contentStart..m.contentEnd])
        + s[m.contentEnd..m.end] + SubFrom(s, m.end)
      case None => [s[i]] + SubFrom(s, i + 1)
  }

  function FixTextFields(s: string): string {
    SubFrom(s, 0)
  }

  /** Text with no `"text":` key anywhere is left exactly as it was. */
  lemma {:induction false} SubFromWithoutFields(s: string, i: nat)
    requires i <= |s|
    requires forall j: nat | i <= j <= |s| :: !OccursAt(s, OpenKey, j)
    ensures SubFrom(s, i) == s[i..]
    decreases |s| - i
  {
    if i < |s| {
      assert MatchAt(s, i).None?;
      SubFromWithoutFields(s, i + 1);
      assert s[i..] == [s[i]] + s[i + 1..];
    }
  }

  lemma FixTextFieldsWithoutFields(s: string)
    requires !Occurs(s, OpenKey)
    ensures FixTextFields(s) == s
  {
    SubFromWithoutFields(s, 0);
  }

  /** A matched field is rewritten in place: the text before the match and the
      `"text": "` opening and `", "type": "text"` closing are kept, the content
      is repaired, and the scan resumes after the match. */
  lemma SubFromAtMatch(s: string, i: nat, m: Match)
    requires i < |s| && MatchAt(s, i) == Some(m)
    ensures SubFrom(s, i) == s[i..m.contentStart] + FixTextContent(s[m.contentStart..m.contentEnd])
                            + s[m.contentEnd..m.end] + SubFrom(s, m.end)
  {
  }

  /** The first half of the repair: `"isError": False/True` become JSON booleans. */
  function FixBooleans(s: string): (r: string)
    ensures |r| == |s|
    ensures !Occurs(r, FalseKey) && !Occurs(r, TrueKey)
  {
    var a := ReplaceAll(s, FalseKey, FalseJson);
    BooleanKeysIsolated();
    ReplaceAllLeavesNoKey([], s, FalseKey, FalseJson, FalseKey);
    assert [] + a == a;
    ReplaceAllLeavesNoKey([], a, TrueKey, TrueJson, TrueKey);
    ReplaceAllLeavesNoKey([], a, TrueKey, TrueJson, FalseKey);
    assert [] + a == a && [] + ReplaceAll(a, TrueKey, TrueJson) == ReplaceAll(a, TrueKey, TrueJson);
    ReplaceAll(a, TrueKey, TrueJson)
  }

  const FalseKey: string := "\"isError\": False"
  const TrueKey: string := "\"isError\": True"
  const FalseJson: string := "\"isError\": false"
  const TrueJson: string := "\"isError\": true"

  /** The boolean repair only ever lower-cases an `F` or a `T`: every other
      character, and the length, stay as they were. */
  lemma FixBooleansOnlyLowercases(s: string)
    ensures var r := FixBooleans(s);
            forall k | 0 <= k < |s| :: r[k] == s[k] || (s[k] == 'F' && r[k] == 'f') || (s[k] == 'T' && r[k] == 't')
  {
    var a := ReplaceAll(s, FalseKey, FalseJson);
    ReplaceAllSameLength(s, FalseKey, FalseJson);
    ReplaceAllSameLength(a, TrueKey, TrueJson);
    var r := FixBooleans(s);
    forall k | 0 <= k < |s|
      ensures r[k] == s[k] || (s[k] == 'F' && r[k] == 'f') || (s[k] == 'T' && r[k] == 't')
    {
      assert a[k] == s[k] || (s[k] == 'F' && a[k] == 'f') by {
        if a[k] != s[k] {
          var j :| 0 <= j < |FalseKey| && s[k] == FalseKey[j] && a[k] == FalseJson[j];
        }
      }
      assert r[k] == a[k] || (a[k] == 'T' && r[k] == 't') by {
        if r[k] != a[k] {
          var j :| 0 <= j < |TrueKey| && a[k] == TrueKey[j] && r[k] == TrueJson[j];
        }
      }
    }
  }

  /** Text with no `"isError"` key is not touched by the boolean repair. */
  lemma FixBooleansWithoutKeys(s: string)
    requires !Occurs(s, FalseKey) && !Occurs(s, TrueKey)
    ensures FixBooleans(s) == s
  {
    ReplaceAllAbsent(s, FalseKey, FalseJson);
    ReplaceAllAbsent(s, TrueKey, TrueJson);
  }

  /** The `"isError": …` strings: a quote, `isError`, a quote and a colon,
      and no further quote. */
  predicate IsErrorShaped(k: string) {
    |k| > 11 && k[..10] == "\"isError\":" && '"' !in k[9..]
  }

  /** No occurrence of one such string can start before another and run on
      into it: inside a key the only quote is at offset 8, and it is followed
      by a colon where a key has `i`. */
  lemma IsErrorRunsNotInto(q: string, key: string)
    requires IsErrorShaped(q) && IsErrorShaped(key)
    ensures RunsNotInto(q, key)
  {
    assert q[0] == '"' && q[1] == 'i' by { assert q[..10][0] == q[0] && q[..10][1] == q[1]; }
    assert key[8] == '"' && key[9] == ':' by { assert key[..10][8] == key[8] && key[..10][9] == key[9]; }
    forall d | 0 < d < |key| ensures !Agree(q, key[d..]) {
      if d == 8 {
        DisagreeAt(q, key[d..], 1);
      } else {
        assert key[d] != '"' by {
          if d < 9 { assert key[d] == key[..10][d]; } else { assert key[d] == key[9..][d - 9]; }
        }
        DisagreeAt(q, key[d..], 0);
      }
    }
  }

  /** Two such strings that differ in their value (offset 11) cannot overlap
      at all. */
  lemma IsErrorIsolated(q: string, key: string)
    requires IsErrorShaped(q) && IsErrorShaped(key) && q[11] != key[11]
    ensures StartsNotInside(q, key) && RunsNotInto(q, key)
  {
    IsErrorRunsNotInto(q, key);
    assert q[8] == '"' && q[9] == ':' by { assert q[..10][8] == q[8] && q[..10][9] == q[9]; }
    assert key[0] == '"' && key[1] == 'i' by { assert key[..10][0] == key[0] && key[..10][1] == key[1]; }
    forall m | 0 <= m < |q| ensures !Agree(q[m..], key) {
      if m == 0 {
        DisagreeAt(q[m..], key, 11);
      } else if m == 8 {
        DisagreeAt(q[m..], key, 1);
      } else {
        assert q[m] != '"' by {
          if m < 9 { assert q[m] == q[..10][m]; } else { assert q[m] == q[9..][m - 9]; }
        }
        DisagreeAt(q[m..], key, 0);
      }
    }
  }

  lemma BooleanStringsShaped()
    ensures IsErrorShaped(FalseKey) && IsErrorShaped(TrueKey)
    ensures IsErrorShaped(FalseJson) && IsErrorShaped(TrueJson)
  {
  }

  /** Neither replacement of the boolean repair can take part in an occurrence
      of either key, and the two keys cannot take part in one another's. */
  lemma BooleanKeysIsolated()
    ensures StartsNotInside(FalseJson, FalseKey) && RunsNotInto(FalseJson, FalseKey)
    ensures StartsNotInside(FalseJson, TrueKey) && RunsNotInto(FalseJson, TrueKey)
    ensures StartsNotInside(TrueJson, TrueKey) && RunsNotInto(TrueJson, TrueKey)
    ensures StartsNotInside(TrueJson, FalseKey) && RunsNotInto(TrueJson, FalseKey)
    ensures StartsNotInside(TrueKey, FalseKey) && RunsNotInto(TrueKey, FalseKey)
    ensures RunsNotInto(FalseKey, FalseKey) && RunsNotInto(TrueKey, TrueKey)
  {
    BooleanStringsShaped();
    IsErrorIsolated(FalseJson, FalseKey);
    IsErrorIsolated(FalseJson, TrueKey);
    IsErrorIsolated(TrueJson, TrueKey);
    IsErrorIsolated(TrueJson, FalseKey);
    IsErrorIsolated(TrueKey, FalseKey);
    IsErrorRunsNotInto(FalseKey, FalseKey);
    IsErrorRunsNotInto(TrueKey, TrueKey);
  }

  /** Between text free of both keys, one `"isError": False` key is rewritten
      to `"isError": false` and nothing else changes. */
  lemma FixBooleansRewritesFalse(x: string, y: string)
    requires !Occurs(x, FalseKey) && !Occurs(x, TrueKey)
    requires !Occurs(y, FalseKey) && !Occurs(y, TrueKey)
    ensures FixBooleans(x + FalseKey + y) == x + FalseJson + y
  {
    BooleanKeysIsolated();
    SpliceStartsNoKey(x, FalseKey, y, FalseKey);
    ReplaceAllFirstOccurrence(x, FalseKey, y, FalseJson);
    ReplaceAllAbsent(y, FalseKey, FalseJson);
    NotOccursAround(x, FalseJson, y, TrueKey);
    ReplaceAllAbsent(x + FalseJson + y, TrueKey, TrueJson);
  }

  /** The same for `"isError": True`. */
  lemma FixBooleansRewritesTrue(x: string, y: string)
    requires !Occurs(x, FalseKey) && !Occurs(x, TrueKey)
    requires !Occurs(y, FalseKey) && !Occurs(y, TrueKey)
    ensures FixBooleans(x + TrueKey + y) == x + TrueJson + y
  {
    BooleanKeysIsolated();
    NotOccursAround(x, TrueKey, y, FalseKey);
    ReplaceAllAbsent(x + TrueKey + y, FalseKey, FalseJson);
    SpliceStartsNoKey(x, TrueKey, y, TrueKey);
    ReplaceAllFirstOccurrence(x, TrueKey, y, TrueJson);
    ReplaceAllAbsent(y, TrueKey, TrueJson);
  }

  /** `fix_control_characters_in_json`. */
  function FixControlCharacters(s: string): string {
    FixTextFields(FixBooleans(s))
  }

  /** Text with neither an `"isError"` key nor a `"text":` key passes
      through the whole repair unchanged. */
  lemma FixControlCharactersIdentity(s: string)
    requires !Occurs(s, FalseKey) && !Occurs(s, TrueKey) && !Occurs(s, OpenKey)
    ensures FixControlCharacters(s) == s
  {
    FixBooleansWithoutKeys(s);
    FixTextFieldsWithoutFields(s);
  }
}

=== FILE: topic_selector.dfy ===
/** The topic step of the setup form (frontend/src/components/TopicSelector.tsx).
    The chosen topic belongs to the form; the picker itself only keeps the
    text of the custom-topic field and whether that text is the choice.
    Every handler returns the picker's new state and the topic it reports
    to the form, if any. */
module TopicSelector {
  import opened Wrappers
  import opened Text
  import opened Types

  datatype Picker = Picker(custom: string, isCustom: bool)

  /** A handler's effect: the new picker and what it passes to `onTopicSelect`. */
  datatype Outcome = Outcome(picker: Picker, reported: Option<string>)

  /** The picker as mounted. */
  const Fresh: Picker := Picker("", false)

  /** The form's topic after an outcome: unchanged when nothing was reported. */
  function TopicAfter(selected: string, o: Outcome): string {
    o.reported.GetOr(selected)
  }

  /** `handlePredefinedTopicSelect`. */
  function PickPredefined(t: Topic): (o: Outcome)
    ensures o.picker == Fresh && o.reported == Some(TopicName(t))
  {
    Outcome(Picker("", false), Some(TopicName(t)))
  }

  /** `handleCustomTopicChange`: the field keeps the raw text; a text that
      trims to something non-empty becomes the choice, trimmed. */
  function CustomChange(value: string): (o: Outcome)
    ensures o.picker.custom == value
    ensures o.picker.isCustom <==> o.reported.Some?
    ensures o.reported.Some? ==> o.reported.value == JsTrim(value)
    ensures o.reported.None? <==> JsTrim(value) == ""
  {
    var trimmed := JsTrim(value);
    if trimmed != "" then Outcome(Picker(value, true), Some(trimmed))
    else Outcome(Picker(value, false), None)
  }

  /** A topic card is highlighted when it is the form's topic and the custom
      field is not the choice. */
  predicate Highlighted(selected: string, p: Picker, t: Topic) {
    selected == TopicName(t) && !p.isCustom
  }

  /** The Continue button is enabled when a topic is chosen. */
  predicate ContinueEnabled(selected: string) {
    selected != ""
  }

  /** After picking a card, exactly that card is highlighted and Continue is
      enabled. */
  lemma PickHighlightsExactlyThatCard(t: Topic, u: Topic)
    ensures var o := PickPredefined(t);
            Highlighted(TopicAfter("", o), o.picker, u) <==> u == t
    ensures ContinueEnabled(TopicAfter("", PickPredefined(t)))
  {
    TopicNameRoundTrip(t);
  }

  /** A custom text reports its trimmed form, which is non-empty and has no
      surrounding whitespace; while it is the choice no card is highlighted. */
  lemma CustomReportsTrimmed(selected: string, value: string, t: Topic)
    requires JsTrim(value) != ""
    ensures var o := CustomChange(value);
            var topic := TopicAfter(selected, o);
            && ContinueEnabled(topic)
            && !IsJsWhitespace(topic[0]) && !IsJsWhitespace(topic[|topic| - 1])
            && !Highlighted(topic, o.picker, t)
  {
  }

  /** A custom text of only whitespace leaves the form's topic as it was and
      hands the highlight back to the cards. */
  lemma BlankCustomKeepsTopic(selected: string, value: string, t: Topic)
    requires JsTrim(value) == ""
    ensures var o := CustomChange(value);
            && TopicAfter(selected, o) == selected
            && (Highlighted(selected, o.picker, t) <==> selected == TopicName(t))
  {
  }

  /** `getTopicDescription`. */
  function TopicDescription(t: Topic): (d: string)
    ensures d != ""
  {
    match t
    case Movies => "Film & Cinema"
    case Sports => "Athletic Events"
    case Mathematics => "Numbers & Logic"
    case Science => "Natural World"
    case History => "Past Events"
    case Technology => "Digital Age"
    case Geography => "World Places"
    case Literature => "Books & Authors"
    case Music => "Music & Artists"
    case Art => "Art & Designs"
  }

  /** Every topic has its own description. */
  lemma DescriptionsDistinct(t: Topic, u: Topic)
    requires t != u
    ensures TopicDescription(t) != TopicDescription(u)
  {
  }
}

=== FILE: trivia_form.dfy ===
/** The three-step setup form (frontend/src/components/TriviaForm.tsx): topic,
    then difficulty, then question count, then the request for questions.
    The request goes through the question service client with a
    caller-supplied transport, and is modelled as completing at once. */
module TriviaForm {
  import opened Wrappers
  import opened Types
  import Api
  import Json

  datatype FormStep = TopicStep | DifficultyStep | CountStep

  datatype Form = Form(
    step: FormStep,
    topic: string,
    difficulty: Option<Difficulty>,
    count: Option<nat>,
    loading: bool,
    error: bool)

  /** The form as mounted: topic step, nothing chosen. */
  const Blank: Form := Form(TopicStep, "", None, None, false, false)

  /** What the form renders: the loading text and the error screen take
      precedence over the current step. */
  datatype Screen = LoadingScreen | ErrorScreen | TopicScreen | DifficultyScreen | CountScreen

  function ScreenOf(f: Form): Screen {
    if f.loading then LoadingScreen
    else if f.error then ErrorScreen
    else match f.step
      case TopicStep => TopicScreen
      case DifficultyStep => DifficultyScreen
      case CountStep => CountScreen
  }

  /** `handleTopicNext`: moves on only with a topic chosen; nothing but the
      step changes. */
  function TopicNext(f: Form): (r: Form)
    ensures r.step == DifficultyStep <==> f.topic != "" || f.step == DifficultyStep
    ensures r.step != DifficultyStep ==> r == f
    ensures r.(step := f.step) == f
  {
    if f.topic != "" then f.(step := DifficultyStep) else f
  }

  /** `handleDifficultyNext`: moves on only with a difficulty chosen; nothing
      but the step changes. */
  function DifficultyNext(f: Form): (r: Form)
    ensures r.step == CountStep <==> f.difficulty.Some? || f.step == CountStep
    ensures r.step != CountStep ==> r == f
    ensures r.(step := f.step) == f
  {
    if f.difficulty.Some? then f.(step := CountStep) else f
  }

  /** `handleBack`: from the topic step the form is left (`onBack`). */
  function Back(f: Form): (r: Option<Form>)
    ensures r.None? <==> f.step == TopicStep
    ensures f.step == DifficultyStep ==> r == Some(f.(step := TopicStep))
    ensures f.step == CountStep ==> r == Some(f.(step := DifficultyStep))
  {
    match f.step
    case TopicStep => None
    case DifficultyStep => Some(f.(step := TopicStep))
    case CountStep => Some(f.(step := DifficultyStep))
  }

  /** Back undoes a step forward. */
  lemma BackUndoesNext(f: Form)
    ensures f.step == TopicStep && f.topic != "" ==> Back(TopicNext(f)) == Some(f)
    ensures f.step == DifficultyStep && f.difficulty.Some? ==> Back(DifficultyNext(f)) == Some(f)
  {
  }

  /** The guard of `handleStartTrivia`: a count of 0 is falsy. */
  predicate Ready(f: Form) {
    f.topic != "" && f.difficulty.Some? && f.count.Some? && f.count.value != 0
  }

  /** The request the stored selections make. */
  function ConfigOf(f: Form): Config
    requires Ready(f)
  {
    Config(f.topic, f.difficulty.value, f.count.value)
  }

  /** The first `n` questions, or all of them when there are fewer
      (`slice(0, n)`). */
  function Prefix(qs: seq<Question>, n: nat): (r: seq<Question>)
    ensures |r| <= n && |r| <= |qs|
    ensures |r| == n || |r| == |qs|
    ensures forall i | 0 <= i < |r| :: r[i] == qs[i]
  {
    if |qs| <= n then qs else qs[..n]
  }

  /** The first half of `handleStartTrivia`, before the request resolves. */
  function Begin(f: Form): (r: Form)
    requires Ready(f)
    ensures r.loading && !r.error && ScreenOf(r) == LoadingScreen
    ensures r.(loading := f.loading, error := f.error) == f
  {
    f.(loading := true, error := false)
  }

  /** The second half: the questions go to `onQuestionsLoaded` on success,
      the error flag is set otherwise, and loading ends either way. */
  function Finish(f: Form, response: ApiResponse): (r: (Form, Option<seq<Question>>))
    requires Ready(f) && !f.error
    ensures !r.0.loading
    ensures r.1.Some? <==> response.success
    ensures r.0.error <==> !response.success
    ensures r.1.Some? ==> r.1.value == Prefix(response.questions, f.count.value)
    ensures r.0.(loading := f.loading, error := f.error) == f
  {
    if response.success then
      (f.(loading := false), Some(Prefix(response.questions, f.count.value)))
    else
      (f.(loading := false, error := true), None)
  }

  /** `handleStartTrivia` with the request resolved: a no-op unless topic,
      difficulty and count are all chosen. */
  function Start(f: Form, send: Json.Value -> Api.Transport): (r: (Form, Option<seq<Question>>))
    ensures !Ready(f) ==> r == (f, None)
    ensures Ready(f) ==> !r.0.loading
    ensures r.0.(loading := f.loading, error := f.error) == f
  {
    if !Ready(f) then (f, None)
    else Finish(Begin(f), Api.FetchQuestions(ConfigOf(f), send))
  }

  /** What the form hands on: exactly when the service delivers, an
      order-preserving prefix of its questions no longer than the count;
      otherwise the error screen and nothing handed on. */
  lemma StartOutcome(f: Form, send: Json.Value -> Api.Transport)
    requires Ready(f)
    ensures var r := Start(f, send);
            var t := send(Api.EncodeRequest(ConfigOf(f)));
            && (r.1.Some? <==> Api.Delivers(t))
            && (r.1.Some? ==> && |r.1.value| <= f.count.value
                              && r.1.value == Prefix(Api.TransformAll(t.body.value.questions.value), f.count.value))
            && (r.1.None? ==> ScreenOf(r.0) == ErrorScreen)
            && (r.1.Some? ==> !r.0.error)
  {
  }

  /** Try Again reruns the start with the stored selections, so it sends
      exactly the request that failed, and it clears the error first. */
  lemma RetrySendsSameRequest(f: Form, send: Json.Value -> Api.Transport)
    requires Ready(f)
    ensures var failed := Start(f, send).0;
            && Ready(failed) && ConfigOf(failed) == ConfigOf(f)
            && !Begin(failed).error
  {
  }

  /** The form's events. */
  datatype Event =
    | ChooseTopic(topic: string)          // `onTopicSelect` from the topic picker
    | ChooseDifficulty(d: Difficulty)
    | ChooseCount(n: nat)
    | PressTopicNext
    | PressDifficultyNext
    | PressBack
    | PressStart(send: Json.Value -> Api.Transport)
    | PressRetry(send: Json.Value -> Api.Transport)

  /** What the form tells the application: nothing, `onQuestionsLoaded`, or
      `onBack`. */
  datatype Signal = Quiet | QuestionsLoaded(questions: seq<Question>) | LeaveForm

  datatype Outcome = Outcome(form: Form, signal: Signal)

  /** One event on the screen that offers it; any other screen ignores it. */
  function Apply(f: Form, e: Event): (r: Outcome)
    ensures r.signal.QuestionsLoaded? ==> Ready(f) && ScreenOf(f) in {CountScreen, ErrorScreen}
    ensures r.signal.QuestionsLoaded? ==> Ready(r.form) && |r.signal.questions| <= r.form.count.value
    ensures r.signal.LeaveForm? <==> e.PressBack? && ScreenOf(f) == TopicScreen
  {
    match e
    case ChooseTopic(topic) =>
      Outcome(if ScreenOf(f) == TopicScreen then f.(topic := topic) else f, Quiet)
    case ChooseDifficulty(d) =>
      Outcome(if ScreenOf(f) == DifficultyScreen then f.(difficulty := Some(d)) else f, Quiet)
    case ChooseCount(n) =>
      Outcome(if ScreenOf(f) == CountScreen then f.(count := Some(n)) else f, Quiet)
    case PressTopicNext =>
      Outcome(if ScreenOf(f) == TopicScreen then TopicNext(f) else f, Quiet)
    case PressDifficultyNext =>
      Outcome(if ScreenOf(f) == DifficultyScreen then DifficultyNext(f) else f, Quiet)
    case PressBack =>
      if ScreenOf(f) in {TopicScreen, DifficultyScreen, CountScreen} then
        match Back(f)
        case None => Outcome(f, LeaveForm)
        case Some(g) => Outcome(g, Quiet)
      else Outcome(f, Quiet)
    case PressStart(send) =>
      if ScreenOf(f) == CountScreen then StartSignal(f, send) else Outcome(f, Quiet)
    case PressRetry(send) =>
      if ScreenOf(f) == ErrorScreen then StartSignal(f, send) else Outcome(f, Quiet)
  }

  function StartSignal(f: Form, send: Json.Value -> Api.Transport): (r: Outcome)
    ensures r.signal.QuestionsLoaded? ==> Ready(f) && r.form.count == f.count
    ensures r.signal.QuestionsLoaded? ==> |r.signal.questions| <= f.count.value
    ensures !r.signal.LeaveForm?
  {
    var (g, loaded) := Start(f, send);
    Outcome(g, if loaded.Some? then QuestionsLoaded(loaded.value) else Quiet)
  }

  /** The form after a sequence of events; it is unmounted once it signals. */
  function Run(f: Form, events: seq<Event>): Outcome
    decreases |events|
  {
    if events == [] then Outcome(f, Quiet)
    else
      var r := Apply(f, events[0]);
      if r.signal.Quiet? then Run(r.form, events[1..]) else r
  }

  /** The steps are reached in order (the difficulty step only with a topic,
      the count step only with a difficulty as well), nothing stays loading,
      and the error screen only follows a started request. */
  predicate StepsInOrder(f: Form) {
    && (f.step != TopicStep ==> f.topic != "")
    && (f.step == CountStep ==> f.difficulty.Some?)
    && !f.loading
    && (f.error ==> Ready(f) && f.step == CountStep)
  }

  lemma ApplyKeepsStepsInOrder(f: Form, e: Event)
    requires StepsInOrder(f)
    ensures StepsInOrder(Apply(f, e).form)
  {
  }

  /** Every form reachable from the blank form keeps its steps in order, so
      questions are only ever requested with a topic, a difficulty and a
      non-zero count. */
  lemma {:induction false} RunKeepsStepsInOrder(f: Form, events: seq<Event>)
    requires StepsInOrder(f)
    ensures StepsInOrder(Run(f, events).form)
    ensures var r := Run(f, events);
            r.signal.QuestionsLoaded? ==> Ready(r.form) && |r.signal.questions| <= r.form.count.value
    decreases |events|
  {
    if events != [] {
      var r := Apply(f, events[0]);
      ApplyKeepsStepsInOrder(f, events[0]);
      if r.signal.Quiet? {
        RunKeepsStepsInOrder(r.form, events[1..]);
      }
    }
  }
}

=== FILE: types.dfy ===
/** The frontend's shared data shapes (frontend/src/types/index.ts). */
module Types {
  import opened Wrappers

  /** `TriviaQuestion`. `correctAnswer` is whatever index the service sent. */
  datatype Question = Question(
    id: string,
    question: string,
    options: seq<string>,
    correctAnswer: int,
    explanation: Option<string>)

  datatype Difficulty = Easy | Medium | Hard

  function DifficultyName(d: Difficulty): string {
    match d
    case Easy => "easy"
    case Medium => "medium"
    case Hard => "hard"
  }

  /** `TriviaConfig`. */
  datatype Config = Config(topic: string, difficulty: Difficulty, count: int)

  /** `ApiResponse`: what the question service client hands to the form. */
  datatype ApiResponse = ApiResponse(questions: seq<Question>, success: bool, message: Option<string>)

  /** One entry of the answer array: the chosen option index, or `null`. */
  type Answer = Option<nat>

  /** `answers[i] === questions[i].correctAnswer`: `null` never matches. */
  predicate Matches(answer: Answer, correct: int) {
    answer.Some? && answer.value == correct
  }

  /** `TRIVIA_TOPICS`. */
  datatype Topic =
    Movies | Sports | Mathematics | Science | History
    | Technology | Geography | Literature | Music | Art

  function TopicName(t: Topic): string {
    match t
    case Movies => "Movies"
    case Sports => "Sports"
    case Mathematics => "Mathematics"
    case Science => "Science"
    case History => "History"
    case Technology => "Technology"
    case Geography => "Geography"
    case Literature => "Literature"
    case Music => "Music"
    case Art => "Art"
  }

  /** The predefined topic a name stands for, if any. */
  function TopicNamed(name: string): Option<Topic> {
    if name == "Movies" then Some(Movies)
    else if name == "Sports" then Some(Sports)
    else if name == "Mathematics" then Some(Mathematics)
    else if name == "Science" then Some(Science)
    else if name == "History" then Some(History)
    else if name == "Technology" then Some(Technology)
    else if name == "Geography" then Some(Geography)
    else if name == "Literature" then Some(Literature)
    else if name == "Music" then Some(Music)
    else if name == "Art" then Some(Art)
    else None
  }

  /** Every topic's name reads back as that topic, so different topics have
      different names. */
  lemma TopicNameRoundTrip(t: Topic)
    ensures TopicNamed(TopicName(t)) == Some(t)
    ensures forall u: Topic :: TopicName(u) == TopicName(t) ==> u == t
  {
  }
}

=== FILE: wrappers.dfy ===
/** Option and Result, the two failure-compatible wrappers the rest of the
    model uses for absent values, Python exceptions and JavaScript errors. */
module Wrappers {

  datatype Option<+T> = None | Some(value: T) {

    predicate IsFailure() {
      None?
    }

    function PropagateFailure<U>(): Option<U>
      requires None?
    {
      None
    }

    function Extract(): T
      requires Some?
    {
      value
    }

    function GetOr(default: T): T {
      match this
      case Some(v) => v
      case None => default
    }
  }

  datatype Result<+R, +E> = Success(value: R) | Failure(error: E) {

    predicate IsFailure() {
      Failure?
    }

    function PropagateFailure<U>(): Result<U, E>
      requires Failure?
    {
      Failure(error)
    }

    function Extract(): R
      requires Success?
    {
      value
    }
  }
}
